=== FILE: README.md ===
# Complaint management system: session, guards, forms and views

This project models the core of a university complaint management system in
Dafny 4.11. The system has a React front end and a Django back end. The model
covers:

- **The session slice.** This is the front end's store slice: the user record
  and its persisted copy under the storage key `"user"`. It includes the startup
  load, the four async thunks (sign-in, sign-up, forgot-password and
  reset-password) and every case reducer (`AuthReducer`).
- **The request gateway.** These are the two HTTP-client interceptors. They
  attach the bearer token, and after a 401 they try one token refresh, meant
  to be followed by a replay of the request (`Gateway`). As written, a good
  refresh still ends the session (see "## Findings").
- **Route guarding.** This covers the two guard components (`ProtectedRoute`
  and `AuthRoute`), the route table, the not-found page and the registrar
  shell's role gate, nested routes and Home button (`Routing`).
- **The authentication forms.** These are the e-mail check, the five-rule
  password policy and the confirmation checks. Each submit handler is modelled:
  sign-up, reset, login and the alternative sign-up page. A submit becomes the
  actions it dispatches, the calls it makes and where it navigates
  (`AuthForms`).
- **The registrar's complaint list.** This covers the search and filter, the
  status colour and the year options (`ComplaintFilter`).
- **The Django views.** These are modelled as functions over an in-memory
  store: `sign_up`, `login`, `update_profile`, the title check of
  `academic_years`, `student_statistics`, `sent_complaints`, the two complaint
  updates, `forgot_password` and `reset_password` (`Views`).
- **Front end against back end.** These lemmas feed the views' responses through
  the thunks, the reducer and the guards (`Consistency`).

Shared pieces live in `Wrappers` (an `Option`), `Text` (one-character split
and join, substring, ASCII lower-casing, digit strings) and `Wire` (the JSON
shapes both sides exchange).

A dispatch is a pure function on a `World`, which holds four things:

- the slice state;
- the stored record (`Absent`, `Unparseable` or `Parsed(user)`);
- the startup snapshot `savedUser`;
- a pending hard navigation.

The snapshot is part of the world because the code reads it after startup:

- `initialState.user` aliases it, so logout restores it;
- the request interceptor reads its token;
- the refresh handler writes the new access token into it, which throws,
  because the slice has frozen its initial state and with it the snapshot.

The slice's `error` field keeps `false`, `null` and a message apart, because
different cases write different falsy values.

The not-found page's recovery link is `Routing.NotFoundLink` ("/"). The login
button's lock is `AuthForms.LoginLocked` (disabled exactly while loading,
see `AuthForms.LoginLockedWhileSigningIn`).

### Behaviour worth knowing

The model follows the code in each of these cases:

- **A good refresh still logs out.** The handler's write into the frozen
  snapshot throws, its catch removes the stored record and leaves for
  "/login", and the request is never replayed
  (`Gateway.GoodRefreshStillLogsOut`). The replay the handler was written for
  is the corrected definition (`Gateway.SnapshotMode.Writable`).
- **No refresh coalescing.** There is only a per-request retry flag, so two
  concurrent 401s each refresh.
- **Bearer token source.** The bearer token comes from the startup snapshot,
  not the live session. After signing in during a session that started logged
  out, requests carry no token (`Gateway.BearerFromSnapshot`).
- **Second 401 on a replay.** With the corrected, writable snapshot, it is
  rejected without clearing the session.
- **Logout target.** Logout restores the startup snapshot, which may be a
  logged-in record. It does not reset to a logged-out default.
- **Restricted routes.** The guard checks the access token, not the login flag.
  The not-found page checks the login flag.
- **A fulfilled sign-up logs the user in.** It sets `isLoggedIn` even though
  the sign-up response carries no tokens, which breaks "logged in iff both
  tokens".
- **Forgot-password can be rejected.** It is rejected with 429 for a repeated
  request and with 500 when the mail cannot be sent. After a mail failure, the
  token and the repeat flag stay set.
- **Local reset validation errors are never shown.** They are dispatched with a
  type the slice does not handle.

## Model

| member | source | states |
|---|---|---|
| AuthReducer.LoadSavedUser | Frontend/src/model/tools/AuthReducer.js:6-20 | A stored record is used iff it parses and has a truthy access token, and it is then used unchanged |
| AuthReducer.Startup | Frontend/src/model/tools/AuthReducer.js:22-46 | The start keeps storage as it is, takes the loaded record as snapshot and user (else the default user), starts not loading, with no error, closed drawer and no years; the user is the default or has a truthy access token |
| AuthReducer.StartupFailsClosed | Frontend/src/model/tools/AuthReducer.js:22-46 | Absent, unparseable or token-less storage starts logged out with the default user, no tokens and no snapshot |
| AuthReducer.StartupRestores | Frontend/src/model/tools/AuthReducer.js:22-46 | A valid stored session is restored exactly, becomes the snapshot, and the app does not start loading |
| AuthReducer.Resolve | Frontend/src/model/tools/AuthReducer.js:176-202 | A hand-written action type reaches only the case whose generated type it equals |
| AuthReducer.ResolveTypeOf | Frontend/src/model/tools/AuthReducer.js:176-202 | The type text the toolkit generates for a pending case or a slice reducer resolves back to that very case, so a hand-written object carrying it has the case's effect |
| AuthReducer.ThunkTypesUnderAuth | Frontend/src/model/tools/AuthReducer.js:101-159 | Every thunk action is typed under "auth/" (the thunks' type prefixes) |
| AuthReducer.SliceTypesUnderAuthSlice | Frontend/src/model/tools/AuthReducer.js:176-202 | Every reducer of the slice is typed under "AuthSlice/" (the slice name), never under "auth/" |
| AuthReducer.SignInOutcome | Frontend/src/model/tools/AuthReducer.js:101-117 | Fulfilled iff the reply is 2xx, carrying its body; otherwise rejected with the body's error or "Login failed", which is never empty |
| AuthReducer.SignUpOutcome | Frontend/src/model/tools/AuthReducer.js:119-135 | Fulfilled iff 2xx; otherwise rejected with the body's error or "Signup failed" |
| AuthReducer.ForgotOutcome | Frontend/src/model/tools/AuthReducer.js:142-157 | Fulfilled iff 2xx; otherwise rejected with the body's error or "Failed to send reset instructions", including when no response arrives |
| AuthReducer.ResetOutcome | Frontend/src/model/tools/AuthReducer.js:159-174 | Fulfilled iff 2xx; otherwise rejected with the body's error or "Failed to reset password" |
| AuthReducer.PendingStartsLoading | Frontend/src/model/tools/AuthReducer.js:203-303 | Every pending case sets loading, shows no error, and leaves the user and storage alone |
| AuthReducer.FulfilledStopsLoading | Frontend/src/model/tools/AuthReducer.js:203-303 | Every fulfilled case clears loading and shows no error |
| AuthReducer.RejectedRecordsMessage | Frontend/src/model/tools/AuthReducer.js:203-303 | Every rejected case clears loading, records exactly its message, and leaves the user and storage alone |
| AuthReducer.RemoveAuthErrorOnlyClearsError | Frontend/src/model/tools/AuthReducer.js:180-182 | Dismissing the error changes the error field and nothing else |
| AuthReducer.ToggleTwiceRestores | Frontend/src/model/tools/AuthReducer.js:183-185 | The drawer toggle flips the flag and is its own inverse |
| AuthReducer.SignInInstallsUser | Frontend/src/model/tools/AuthReducer.js:210-232 | A sign-in installs and persists the payload user. Its username is the e-mail's text before the first "@". `has_profile` is true iff the payload sends the text "true". The tokens are the payload's |
| AuthReducer.UserFromBody | Frontend/src/model/tools/AuthReducer.js:214-229 | The installed user is logged in with the response's e-mail, tokens, role, id, programme and numbers; the username is the e-mail up to its first "@"; `has_profile` iff the text "true" |
| AuthReducer.SignInWithTokensConsistent | Frontend/src/model/tools/AuthReducer.js:210-232 | A sign-in with both tokens satisfies "logged in iff both tokens", and a restart restores the persisted user exactly |
| AuthReducer.SignUpWithoutTokensInconsistent | Frontend/src/model/tools/AuthReducer.js:245-268 | A sign-up without tokens still sets the login flag, breaks the invariant, and a restart finds no session |
| AuthReducer.UpdateProfileMerges | Frontend/src/model/tools/AuthReducer.js:195-201 | Only the three profile fields and the profile flag change. Tokens, role, e-mail and the login flag stay, and the result is persisted |
| AuthReducer.LogoutResets | Frontend/src/model/tools/AuthReducer.js:186-194 | Logout restores the startup user, clears the flags and years, removes storage and leaves for "/login". A restart is then logged out, and logout is idempotent |
| AuthReducer.UnknownTypesIgnored | Frontend/src/model/tools/AuthReducer.js:176-202 | Actions typed "auth/removeAuthError" or "auth/setError" change nothing, because the slice's own type is "AuthSlice/removeAuthError" |
| AuthReducer.PlainReachesCase | Frontend/src/model/tools/AuthReducer.js:176-208 | An action object written with a case's generated type has that case's effect |
| AuthReducer.ReduceCase | Frontend/src/model/tools/AuthReducer.js:176-303 | No case changes the snapshot; only logout navigates (to "/login"); only logout, profile update and the two fulfilled sign-ins touch the user or storage, and those three write the new user to storage |
| AuthReducer.Reduce | Frontend/src/model/tools/AuthReducer.js:176-303 | An action object of an unknown type changes nothing; no dispatch changes the snapshot, and any navigation it starts goes to "/login" |
| Gateway.Authorize | Frontend/src/model/tools/AuthReducer.js:49-60 | A truthy snapshot access token becomes the bearer header; otherwise the request is untouched |
| Gateway.OnError | Frontend/src/model/tools/AuthReducer.js:63-99 | One refresh call iff a first 401 finds a refresh token in the snapshot. Only a writable snapshot replays, and the replay is marked retried. Non-401 or retried failures pass through untouched. Storage is removed and the page leaves for "/login" iff a first 401 has no refresh token, a failed refresh, or a frozen snapshot the token write throws on |
| Gateway.Exchange | Frontend/src/model/tools/AuthReducer.js:63-99 | A request gets at most two attempts and one refresh (one attempt and no refresh once retried). On the frozen snapshot there is a single attempt and the snapshot never changes. A delivered request never leaves the page |
| Gateway.GoodRefreshStillLogsOut | Frontend/src/model/tools/AuthReducer.js:80-95 | As written: 401, good refresh: not delivered, one attempt, one refresh call, storage removed, "/login", and a restart is logged out; a writable snapshot would have delivered |
| Gateway.RefreshThenReplay | Frontend/src/model/tools/AuthReducer.js:67-89 | Corrected (writable snapshot): 401, good refresh, success: delivered on the second attempt, with only the access token replaced in the snapshot and in storage |
| Gateway.SecondUnauthorizedRejected | Frontend/src/model/tools/AuthReducer.js:67-97 | Corrected (writable snapshot): a 401 on the replay is rejected with no second refresh and the session kept |
| Gateway.UnrecoverableUnauthorized | Frontend/src/model/tools/AuthReducer.js:69-95 | In either snapshot mode, a 401 with no refresh token or a failed refresh removes storage, leaves for "/login", and a restart is logged out |
| Gateway.OtherFailuresPassThrough | Frontend/src/model/tools/AuthReducer.js:97 | Non-401 failures are rejected at once with no refresh and no session change |
| Gateway.BearerFromSnapshot | Frontend/src/model/tools/AuthReducer.js:49-56 | After signing in during a session that started logged out, requests still carry no bearer token |
| Gateway.LogoutAfterRefresh | Frontend/src/model/tools/AuthReducer.js:82-85 | Corrected (writable snapshot): a refresh rewrites the snapshot in place, so a later logout restores the refreshed access token |
| Routing.ProtectedRoute | Frontend/src/App.jsx:19-43 | Wait while loading. Without an access token, redirect to "/login" with replace and the path as `from`. Otherwise render |
| Routing.AuthRoute | Frontend/src/App.jsx:46-87 | Wait while loading. Render without a token or on "/". Otherwise redirect with replace to a truthy `from`, or else the role's home, recording the path |
| Routing.NotFoundPage | Frontend/src/pages/Auth/NotFound.jsx:25-27 | Redirects iff the login flag is set, to "/" plus the role as a template literal renders it; otherwise renders |
| Routing.Navigate | Frontend/src/App.jsx:246-312 | The decision for a path is the decision of the guard the route table puts on it |
| Routing.MatchSegments | Frontend/src/App.jsx:246-312 | Only the empty segment list is the splash page; a path is restricted iff its first segment is "lecturer", "student" or "registrar" (the "/*" routes); the reset page takes exactly two segments |
| Routing.MatchesRoot | Frontend/src/App.jsx:247-254 | "/" is the splash page |
| Routing.MatchesLogin | Frontend/src/App.jsx:255-262 | "/login" is the login page |
| Routing.MatchesLecturer | Frontend/src/App.jsx:287-294 | "/lecturer" is the lecturer area |
| Routing.MatchesStudent | Frontend/src/App.jsx:295-302 | "/student" is the student area |
| Routing.MatchesRegistrar | Frontend/src/App.jsx:303-310 | "/registrar" is the registrar area |
| Routing.AreaPattern | Frontend/src/App.jsx:287-310 | A path is in a role area iff, after its leading slash, it starts with the area's word followed by nothing or by a "/" and anything at all, as the router's pattern for "/lecturer/*" and its siblings accepts |
| Routing.SplashIsOnlySlashes | Frontend/src/App.jsx:247-254 | A path is the splash page iff it consists of slashes alone |
| Routing.DoubledSlashMissesLogin | Frontend/src/App.jsx:255-262 | "//login" matches no page and goes to the not-found route |
| Routing.DoubledSlashMissesReset | Frontend/src/App.jsx:279-286 | A doubled slash before the reset token matches no page |
| Routing.TrailingSlashKeepsReset | Frontend/src/App.jsx:279-286 | A trailing slash after the reset token still reaches the reset page with that token |
| Routing.RoleHomeIsRestricted | Frontend/src/App.jsx:67-75 | A known role's default destination is a restricted route |
| Routing.UnknownRoleFallsBackToLogin | Frontend/src/App.jsx:67-75 | An unknown role's default destination is "/login", itself a public-only page |
| Routing.RestrictedNeedsToken | Frontend/src/App.jsx:37-40 | A restricted page is never rendered without an access token; once loaded, it redirects to "/login" with the path |
| Routing.ProtectedIgnoresFlagAndRole | Frontend/src/App.jsx:37-42 | The restricted guard's decision does not depend on the login flag or the role |
| Routing.StudentSentHome | Frontend/src/App.jsx:65-83 | A signed-in student with no `from` who opens a public page other than "/" is sent to "/student", a restricted route |
| Routing.UnknownRoleLoopsOnLogin | Frontend/src/App.jsx:65-83 | With a token, an unknown role and no `from`, the login page redirects to itself |
| Routing.MissingSendsRoleHome | Frontend/src/pages/Auth/NotFound.jsx:25-27 | A flagged-in user of any known role on an unmatched path is sent (without replace) to that role's home |
| Routing.NotFoundAndGuardDisagree | Frontend/src/pages/Auth/NotFound.jsx:25-27 | For every known role, a flagged-in session without a token is sent from an unknown path to the role's home, which the guard sends on to "/login" with that path as `from` |
| Routing.RegistrarShell | Frontend/src/pages/registrar/Registrar.jsx:32-62 | The shell appears iff the role is "registrar" (otherwise redirect to "/"). The Home button shows iff the path is not exactly "/registrar" |
| Routing.RegistrarSubroute | Frontend/src/pages/registrar/Registrar.jsx:36-43 | Every path the nested table shows a view for lies under the registrar area of the application's route table |
| Routing.HomeLandsOnIndex | Frontend/src/pages/registrar/Registrar.jsx:46-52 | The Home button's target shows the index view with the button hidden |
| Routing.TrailingSlashShowsHome | Frontend/src/pages/registrar/Registrar.jsx:46 | "/registrar/" shows the index view and still shows the Home button |
| Routing.OtherRoleBouncesToSplash | Frontend/src/pages/registrar/Registrar.jsx:60-62 | Another role with a token passes the guard, is bounced by the shell to "/", and the splash page renders |
| Text.Split | Frontend/src/pages/Auth/SignUp.jsx:43 | A split has one more segment than separators, and no segment contains the separator |
| Text.SplitThenJoin | Frontend/src/pages/Auth/SignUp.jsx:43 | Joining a split with its separator gives the text back |
| Text.JoinThenSplit | Frontend/src/pages/Auth/SignUp.jsx:43 | Splitting a join of separator-free segments gives the segments back |
| Text.FirstSegmentIsPrefix | Frontend/src/model/tools/AuthReducer.js:221 | The first segment is the text up to the first separator |
| AuthForms.EmailDomain | Frontend/src/pages/Auth/SignUp.jsx:43 | A domain exists iff the address has an "@", and it contains no "@" |
| AuthForms.DomainOfAddress | Frontend/src/pages/Auth/SignUp.jsx:43 | The domain is the text between the first "@" and the next, or the end |
| AuthForms.ValidateEmail | Frontend/src/pages/Auth/SignUp.jsx:41-51 | An empty address is "Email is required". Any other is accepted iff it has an "@" and the following segment is one of the two allowed domains |
| AuthForms.EmailAcceptance | Frontend/src/pages/Auth/SignUp.jsx:41-51 | An address local@domain[@rest] is accepted iff the domain is allowed, whatever follows |
| AuthForms.Violations | Frontend/src/pages/Auth/SignUp.jsx:58-75 | The broken rules are exactly those the password fails, each once, in checking order. The list is empty iff the policy holds |
| AuthForms.PolicyMessages | Frontend/src/pages/Auth/ResetPassword.jsx:36-56 | One non-empty message per broken rule, in checking order |
| AuthForms.EmptyBreaksEveryRule | Frontend/src/pages/Auth/ResetPassword.jsx:36-56 | The empty password breaks all five rules |
| AuthForms.SignUpPasswordError | Frontend/src/pages/Auth/SignUp.jsx:53-76 | Empty gives "Password is required". Any other password gives its policy messages joined with ". ", which is "" iff it meets the policy |
| AuthForms.ValidatorsAgree | Frontend/src/pages/Auth/ResetPassword.jsx:38-54 | For a non-empty password, the sign-up message is empty iff the reset list is empty |
| AuthForms.ConfirmErrorOnPasswordEdit | Frontend/src/pages/Auth/SignUp.jsx:84-93 | A password edit flags a mismatch iff the confirmation is non-empty and differs |
| AuthForms.ConfirmErrorOnConfirmEdit | Frontend/src/pages/Auth/SignUp.jsx:95-103 | A confirmation edit flags a mismatch iff it differs |
| AuthForms.ClearedConfirmationIsAsymmetric | Frontend/src/pages/Auth/SignUp.jsx:84-103 | An empty confirmation is flagged by its own edit but not by a password edit |
| AuthForms.SignUpSubmit | Frontend/src/pages/Auth/SignUp.jsx:105-140 | No field error iff the e-mail, policy and confirmation checks pass; with an error, nothing is dispatched. Otherwise sign-up, then sign-in only if sign-up succeeded. Navigation (replace) to "/" plus the sign-in role iff both succeed |
| Routing.RolePathIsHome | Frontend/src/pages/Auth/SignUp.jsx:135 | For a known role, "/" plus the role is the guard's home for it; a missing role gives "/null" |
| AuthForms.SignUpChainLogsIn | Frontend/src/pages/Auth/SignUp.jsx:127-135 | When sign-in issues both tokens, the completed chain leaves a consistent, persisted, non-loading session whose destination the guard renders |
| AuthForms.ResetSubmit | Frontend/src/pages/Auth/ResetPassword.jsx:58-98 | The policy is checked before the confirmation. The reset call is made iff both pass. Success iff it fulfils, then the page goes to "/login" with the server's message or the fixed fallback |
| AuthForms.LocalResetErrorInvisible | Frontend/src/pages/Auth/ResetPassword.jsx:63-78 | A locally refused reset leaves the whole store unchanged |
| AuthForms.ResetLocksOnSuccess | Frontend/src/pages/Auth/ResetPassword.jsx:204-265 | After success the form stays locked. After a server failure it unlocks and shows the error |
| AuthForms.ResetMessageReachesLogin | Frontend/src/pages/Auth/Login.jsx:33 | After a successful reset the page goes to "/login", whose banner is the message carried in the navigation state, and it is non-empty |
| AuthForms.LoginSubmit | Frontend/src/pages/Auth/Login.jsx:43-54 | One sign-in call. Navigation (replace) iff it fulfils, to a truthy `from` or else "/" plus the role |
| AuthForms.LoginLockedWhileSigningIn | Frontend/src/pages/Auth/Login.jsx:233 | The login button (disabled while the store loads) locks when the sign-in starts and unlocks once it settles, whatever the reply |
| AuthForms.LoginReturnsToIntendedPage | Frontend/src/pages/Auth/Login.jsx:43-54 | A visitor the guard sent to log in, whose sign-in carries a token, returns to the page they asked for and the guard renders it |
| AuthForms.LoginDismissKeepsError | Frontend/src/pages/Auth/Login.jsx:283 | The dismiss button's action leaves the shown error in place |
| AuthForms.SignUpPageSubmit | Frontend/src/pages/Auth/SignUpPage.jsx:49-77 | Mismatch is checked before length. The only policy is length at least 8. One sign-up call iff both pass. Navigation iff it fulfils, to a truthy `from` or else "/" plus the role |
| AuthForms.SignUpPagesDisagree | Frontend/src/pages/Auth/SignUpPage.jsx:60-66 | A long password without an uppercase letter is sent by this page but stopped by the main sign-up form |
| ComplaintFilter.Filter | Frontend/src/pages/registrar/ProgrammeComplaints.jsx:67-83 | The result is an order-preserving subsequence. It holds exactly the complaints satisfying search, status and year, each as often as in the input |
| ComplaintFilter.EmptyTermMatchesPresentFields | Frontend/src/pages/registrar/ProgrammeComplaints.jsx:68-75 | The empty term matches iff one of the three fields is present |
| ComplaintFilter.SearchIgnoresTermCase | Frontend/src/pages/registrar/ProgrammeComplaints.jsx:68-75 | Lower-casing the term does not change the search |
| ComplaintFilter.AllImposesNothing | Frontend/src/pages/registrar/ProgrammeComplaints.jsx:77-80 | With "all" for status and year, exactly the search matches are kept |
| ComplaintFilter.EmptyStateIffNothingKept | Frontend/src/pages/registrar/ProgrammeComplaints.jsx:292 | The empty-state message shows iff no complaint satisfies the filter |
| ComplaintFilter.StatusColor | Frontend/src/pages/registrar/ProgrammeComplaints.jsx:103-114 | Each colour is chosen iff the lower-cased status is its word, else "default" |
| ComplaintFilter.StatusColorIgnoresCase | Frontend/src/pages/registrar/ProgrammeComplaints.jsx:103-104 | The colour depends only on the lower-cased status |
| ComplaintFilter.Distinct | Frontend/src/pages/registrar/ProgrammeComplaints.jsx:197 | The distinct values hold the same members without repeats, in first-occurrence order |
| ComplaintFilter.YearOptions | Frontend/src/pages/registrar/ProgrammeComplaints.jsx:197 | The one-pass options equal the reference: each year of some complaint appears once, in first-occurrence order |
| Views.RoleFor | backend/app/views.py:59-62 | "student" iff the address contains the student domain, else "lecturer" |
| Views.DomainAcceptedIffInfix | backend/app/views.py:51-53 | An address passes the domain check iff one of the two domain texts occurs in it, with anything before and after |
| Views.DomainAnywhereAccepted | backend/app/views.py:51-53 | Either domain text anywhere in the address passes, whatever precedes or follows it: a substring test, not a domain comparison |
| Views.SignUpView | backend/app/views.py:46-83 | 201 iff the e-mail is present, contains an allowed domain, the password is present, the e-mail is new and the data is valid. The account appended has the role from the domain and no profile. The body has a message and the user but no tokens. A missing e-mail is 400 "'email'", and the store is unchanged on failure |
| Views.SignUpKeepsEmailsUnique | backend/app/views.py:64-70 | Sign-up preserves unique e-mails |
| Views.LoginView | backend/app/views.py:85-129 | 400 iff a field is missing or empty. 200 iff the account exists and the password matches, with both tokens and the account's e-mail, numbers, programme, role, id and `has_profile` as "true"/"false". Otherwise the one 401 body |
| Views.LoginHidesAccounts | backend/app/views.py:96-104 | An unknown e-mail and a wrong password get identical responses |
| Views.SignUpThenLogin | backend/app/views.py:46-127 | A fresh account logs in with its sign-up password and gets its assigned role and "false" for the profile |
| Views.Apply | backend/app/views.py:164-170 | A partial update changes only the fields it carries (e-mail, role and the three profile fields) and sets the profile flag; id and password stay |
| Views.UpdateProfileView | backend/app/views.py:156-178 | Unknown id is 404, invalid data is 400, both with no change. Otherwise 202 with the one account updated |
| Views.UpdateProfileKeepsEmailsUnique | backend/app/views.py:156-178 | A profile update preserves unique e-mails, given that valid data never carries another account's e-mail |
| Views.TakenEmailBreaksUniqueness | backend/app/views.py:164-166 | Accepting another account's e-mail would break uniqueness, so the previous row needs its assumption |
| Views.ValidateYearTitle | backend/app/views.py:291-302 | The only outcomes are acceptance, the format message and the step message; a title without exactly one "/" gets the format message |
| Views.YearTitleAccepted | backend/app/views.py:291-302 | Every "YYYY/YYYY+1" title is accepted |
| Views.AcceptedTitleIsYearTitle | backend/app/views.py:291-302 | Every accepted title is "YYYY/YYYY+1" for its start year |
| Views.WrongStepIsReported | backend/app/views.py:299-300 | Two four-digit years that do not follow each other get the step message |
| Views.CreateYearView | backend/app/views.py:287-309 | 201 iff the title passes and the data is valid, appending it. Otherwise 400 with no change: a refused title carries the title check's message, and a refusal by the serializer carries the serializer's errors |
| Views.PendingOf | backend/app/views.py:224-226 | The count is the number of the student's rows whose status is "pending" |
| Views.StudentStatistics | backend/app/views.py:221-233 | `total` counts the student's complaints of both kinds; `pending` counts those of them with status "pending", so is at most `total` |
| Views.SentComplaints | backend/app/views.py:366-384 | The student's missing-marks complaints, tagged, followed by their registration complaints, tagged |
| Views.SentMatchesStatistics | backend/app/views.py:366-384 | The list is as long as the statistics total |
| Views.Severity | backend/app/views.py:410 | "success" iff the status is "resolved", else "info" |
| Views.UpdateComplaintView | backend/app/views.py:399-439 | Unknown id is 400 with nothing created. A missing status is 500 with nothing written. Otherwise one notification to the student and the status set |
| Views.UpdateComplaintIsLocal | backend/app/views.py:399-439 | An update touches only its own table and the notifications |
| Views.ForgotPasswordView | backend/app/views.py:456-515 | A missing e-mail is 400. An unknown e-mail gets the generic message with no change. A known one gets a 24-hour token and the repeat flag, answered 200, or 500 with the mail-failure message if the mail fails. A 429 carries the repeat message |
| Views.ForgotRecentRefused | backend/app/views.py:463-468 | An e-mail with a recent request is refused with 429 before any lookup, changing nothing |
| Views.ForgotHidesAccounts | backend/app/views.py:470-476 | Unknown and known e-mails get identical responses |
| Views.ForgotTwiceRefused | backend/app/views.py:463-468 | A second request for the same registered e-mail is refused with 429 |
| Views.Consume | backend/app/views.py:553-556 | Afterwards every token of the owner is used, the consumed token stays marked used, already-used tokens and other owners' tokens are kept, and nothing new appears |
| Views.ResetPasswordView | backend/app/views.py:517-563 | The writes happen iff the password is present and strong and exactly one usable token matches: the owner's password is replaced and the tokens consumed. The answer is then 200 iff the session clean-up succeeds, otherwise 500 after the writes. No usable token gives the refusal message; without the writes the store is unchanged |
| Views.SetPassword | backend/app/views.py:546 | The account with that id gets the new password and nothing else of it changes; every other account stays as it was |
| Views.LookupAfterSetPassword | backend/app/views.py:544-547 | Setting a password changes no e-mail, so a lookup by e-mail finds the same account before and after |
| Views.ConsumedTextUnusable | backend/app/views.py:553-556 | With unique token texts, no token with the consumed text is usable afterwards |
| Views.TokenSingleUse | backend/app/views.py:532-556 | Once a reset has gone through to its writes, its token is refused ever after, even if the first answer was the clean-up's 500 |
| Views.ResetThenLogin | backend/app/views.py:543-563 | After a reset has gone through to its writes, the owner logs in with the new password, whatever the clean-up did |
| Consistency.AuthReply | Frontend/src/model/tools/AuthReducer.js:101-135 | A 2xx login body is the thunk's payload, and a non-2xx error body becomes its error |
| Consistency.NoticeReply | Frontend/src/model/tools/AuthReducer.js:159-174 | A 2xx message body is the thunk's payload |
| Consistency.FrontAcceptanceImpliesBackAcceptance | backend/app/views.py:51-53 | Every address the sign-up form accepts passes the back end's domain check |
| Consistency.BackAcceptsWhatFrontRefuses | backend/app/views.py:51-53 | An address whose domain only starts with the student domain is refused by the form but accepted by the back end |
| Consistency.StaffAddressGetsStudentRole | backend/app/views.py:59-62 | A staff-domain address whose local part contains the student domain passes the form and gets the student role |
| Consistency.ProfileFlagRoundTrip | backend/app/views.py:125 | The profile flag sent as text by login is read back exactly by the reducer |
| Consistency.LoginOpensRoleArea | backend/app/views.py:115-127 | A successful login yields a consistent session with the account's role, whose area the guard renders |
| Consistency.SignUpFormReachesRoleArea | Frontend/src/pages/Auth/SignUp.jsx:127-135 | A new address and password the form accepts sign up (201), sign in and land in the role area sign-up assigned, with a consistent session |
| Consistency.SignUpPageStrandsSession | Frontend/src/pages/Auth/SignUpPage.jsx:68-73 | After the alternative page's sign-up, the session claims to be logged in without tokens, and the guard sends its destination to "/login" |
| Consistency.ForgotReachesSlice | Frontend/src/model/tools/AuthReducer.js:142-157 | Every forgot-password response stops the spinner; the slice shows no error iff the view answered 200, and otherwise the view's own message (the 429 repeat message, the 500 mail-failure message) |
| Consistency.ResetMessageReachesBanner | backend/app/views.py:561-563 | The server's reset message is what the login page's banner shows |
| Consistency.CleanupFailureHidesReset | backend/app/views.py:543-559 | If the session clean-up fails, the password is already replaced and the token spent, yet the page shows "Failed to reset password", stays on the form, and a retry with the same link is refused |

## Left out

- Network transport, JSON encoding, timers (the 3 s and 5 s delays), React rendering and styling are not modelled. Responses are inputs to the thunks and the gateway.
- Concurrency is not modelled: overlapping dispatches, concurrent 401s, and a late response mutating the store after navigation. The model covers one request at a time.
- The token-refresh call is an input (`RefreshResult`). The model does not cover that the front end posts to "/token/refresh/" while the URL configuration registers it without the trailing slash; the URL configuration is not part of this model.
- Gateway.OnError: the bound of one refresh per request assumes the refresh endpoint never answers 401. Such a 401 passes through the same interceptor, whose refresh request carries no retry flag, so it starts another refresh, without bound while the endpoint keeps answering 401.
- Gateway.Exchange: same assumption as the previous line. A refresh that fails for any other reason is `RefreshFailed`.
- The store's freezing is modelled only where it changes behaviour, the refresh handler's write (`Gateway.SnapshotMode`). Logout assigns the snapshot as a value.
- Storage is the three-valued `Stored`. The slice's own writes are assumed to read back as the written record.
- Routing.Match: React Router matching is case-insensitive for static segments, and the pathname is percent-decoded first; the route table here matches the text exactly. Leading, inner and trailing slashes are modelled as the router's patterns treat them.
- The pages' local UI state is not modelled: visibility toggles, the 5-second banner expiry, and the alternative sign-up page's banner (the same rule as `AuthForms.LoginBanner`).
- `ForgotPassword.jsx`, `SplashScreen.jsx` and the dialogs of `Index.jsx` are not modelled (presentation plus a success flag). The forgot-password thunk and its reducer cases are modelled.
- `AuthReducer.Resolve`: only action objects whose case reads no payload are resolved. No page dispatches a payload-reading type by hand.
- Views.SignUpView: the serializer's validation and output are an input flag (`valid`) and `Serialize`. Password hashing is an injective wrapper.
- Views.LoginView: the tokens are opaque inputs. A stored programme that fails the integer conversion is not modelled.
- Views.ResetPasswordView: `validate_password` is an input flag (`strong`). The clock is an integer input. A failing `set_password` (500) is not modelled. The session clean-up is an input flag (`cleared`): it goes through `user.auth_token_set`, a reverse accessor that only an installed token app defines, and the user model and settings that would say whether one is installed are not part of this model. Without it, every reset that reaches its writes answers 500 (`Consistency.CleanupFailureHidesReset`).
- Views.ForgotPasswordView: the token text is an input and is assumed fresh (`UniqueTokenTexts`). The one-hour expiry of the repeat flag is not modelled (the flag is a set of e-mails), nor is the rate throttle. Mail delivery is an input flag.
- Views.UpdateComplaintView: the notification body text is not modelled. Neither is the missing-marks text's lookup of the course's lecturer, which can itself fail.
- Views.StudentStatistics: the counts are over in-memory lists, not database queries. The student key is a `nat`. The URL pattern takes any text, and a non-numeric key makes the query raise an uncaught error (500), which is not modelled.
- Views.SentComplaints: the student key is a `nat`. A non-numeric key from the text URL pattern makes the query raise an uncaught error (500), which is not modelled.
- Views.UpdateProfileView: the serializer's field list is not part of this model. Fields other than e-mail, role and the three profile fields (the password among them) are not modelled, and the serializer's checks are the input flag `valid`.
- Routing.Shown: a role that is an explicit null renders "null"; a role key missing from the stored record, which would render "undefined", is not distinguished from null.
- Views.CreateYearView: the list side of `academic_years` (ordering by creation date) is not modelled.
- Other views of the back end (`verify_otp`, courses, programmes, notifications, complaint creation and listing) are outside the authentication, routing and complaint-filter core described above and are not modelled.
- Strings are ASCII: Unicode case folding and Unicode digits are not modelled.

## Findings

| source | as written | input that shows it | evidently intended | confidence | as-written member | corrected member |
|---|---|---|---|---|---|---|
| Frontend/src/model/tools/AuthReducer.js:82-95 | After a good refresh the handler assigns the new access token into the startup snapshot, which the slice has deep-frozen as its initial user, so the assignment throws; the catch removes the stored record, leaves for "/login" and rejects | A first 401 on any request while the stored user has a refresh token, and a refresh call that returns a new access token | The token is replaced in the snapshot and in storage and the request is replayed with the new bearer token | not executed; rests on the state library freezing the initial state it is given | Gateway.GoodRefreshStillLogsOut | Gateway.RefreshThenReplay |

=== FILE: authforms.dfy ===
/** The authentication forms: the client-side validators and, for each
    form, what its submit handler dispatches to the store, which back-end
    calls it makes and where it navigates. Server replies are inputs; the
    dispatched actions can be fed to the reducer to see their effect. */
module AuthForms {
  import opened Wrappers
  import opened Text
  import opened Wire
  import opened AuthReducer
  import opened Routing

  // ---- E-mail ------------------------------------------------------------

  const AllowedDomains: seq<string> := ["students.mak.ac.ug", "cit.mak.ac.ug"]
  const EmailRequired := "Email is required"
  const EmailDomainRejected := "Email must be from students.mak.ac.ug or cit.mak.ac.ug"

  /** `email.split("@")[1]`: the text between the first "@" and the next
      one (or the end); undefined when there is no "@". */
  function EmailDomain(email: string): (d: Option<string>)
    ensures d.Some? <==> '@' in email
    ensures d.Some? ==> '@' !in d.value
  {
    OccurrencesPositive(email, '@');
    var parts := Split(email, '@');
    if |parts| >= 2 then Some(parts[1]) else None
  }

  /** The domain of a one-"@" address is the text after the "@"; text after
      a second "@" is not part of it. */
  lemma {:induction false} DomainOfAddress(local: string, domain: string, rest: Option<string>)
    requires '@' !in local && '@' !in domain
    ensures var email := if rest.Some? then local + "@" + domain + "@" + rest.value else local + "@" + domain;
      EmailDomain(email) == Some(domain)
  {
    if rest.Some? {
      var tail := domain + "@" + rest.value;
      SplitAfterSegment(local, '@', tail);
      SplitAfterSegment(domain, '@', rest.value);
      assert local + "@" + domain + "@" + rest.value == local + ['@'] + tail;
      assert tail == domain + ['@'] + rest.value;
    } else {
      SplitAfterSegment(local, '@', domain);
      SplitWithoutSeparator(domain, '@');
      assert local + "@" + domain == local + ['@'] + domain;
    }
  }

  /** The sign-up form's e-mail check: required, and its domain must be one
      of the two university domains. */
  function ValidateEmail(email: string): (msg: string)
    ensures email == "" ==> msg == EmailRequired
    ensures email != "" ==>
      (msg == "" <==> EmailDomain(email).Some? && EmailDomain(email).value in AllowedDomains)
    ensures msg != "" && email != "" ==> msg == EmailDomainRejected
  {
    var domain := EmailDomain(email);
    if email == "" then EmailRequired
    else if !(domain.Some? && domain.value in AllowedDomains) then EmailDomainRejected
    else ""
  }

  /** An address with exactly one "@" is accepted iff its domain is allowed;
      anything after a second "@" is ignored by the domain test. */
  lemma EmailAcceptance(local: string, domain: string, rest: Option<string>)
    requires '@' !in local && '@' !in domain
    ensures var email := if rest.Some? then local + "@" + domain + "@" + rest.value else local + "@" + domain;
      ValidateEmail(email) == "" <==> domain in AllowedDomains
  {
    DomainOfAddress(local, domain, rest);
  }

  // ---- Password policy ---------------------------------------------------

  /** The five rules of the password policy, in the order they are checked. */
  datatype Rule = MinLength | Uppercase | Lowercase | Number | Special

  function Ordinal(r: Rule): nat
  {
    match r
    case MinLength => 0
    case Uppercase => 1
    case Lowercase => 2
    case Number => 3
    case Special => 4
  }

  const SpecialChars := "!@#$%^&*"

  predicate Holds(r: Rule, p: string)
  {
    match r
    case MinLength => |p| >= 8
    case Uppercase => exists i | 0 <= i < |p| :: 'A' <= p[i] <= 'Z'
    case Lowercase => exists i | 0 <= i < |p| :: 'a' <= p[i] <= 'z'
    case Number => exists i | 0 <= i < |p| :: IsDigit(p[i])
    case Special => exists i | 0 <= i < |p| :: p[i] in SpecialChars
  }

  /** The reference statement of the policy. */
  predicate MeetsPolicy(p: string)
  {
    forall r: Rule :: Holds(r, p)
  }

  function RuleMessage(r: Rule): (m: string)
    ensures m != ""
  {
    match r
    case MinLength => "Password must be at least 8 characters long"
    case Uppercase => "Password must contain at least one uppercase letter"
    case Lowercase => "Password must contain at least one lowercase letter"
    case Number => "Password must contain at least one number"
    case Special => "Password must contain at least one special character (!@#$%^&*)"
  }

  /** The rules in the order the forms check them. */
  const AllRules: seq<Rule> := [MinLength, Uppercase, Lowercase, Number, Special]

  predicate InCheckingOrder(rules: seq<Rule>)
  {
    forall i, j :: 0 <= i < j < |rules| ==> Ordinal(rules[i]) < Ordinal(rules[j])
  }

  /** A rule that precedes a list precedes every rule drawn from it. */
  lemma ConsKeepsOrder(x: Rule, xs: seq<Rule>, ys: seq<Rule>)
    ensures InCheckingOrder([x] + xs) && InCheckingOrder(ys) && (forall r :: r in ys ==> r in xs)
      ==> InCheckingOrder([x] + ys)
  {
    if InCheckingOrder([x] + xs) && InCheckingOrder(ys) && (forall r :: r in ys ==> r in xs) {
      forall i, j | 0 <= i < j < |[x] + ys| ensures Ordinal(([x] + ys)[i]) < Ordinal(([x] + ys)[j]) {
        var zs := [x] + ys;
        assert zs[j] == ys[j - 1] && ys[j - 1] in xs;
        if i == 0 {
          var k :| 0 <= k < |xs| && xs[k] == ys[j - 1];
          assert ([x] + xs)[0] == x && ([x] + xs)[k + 1] == xs[k];
          assert zs[i] == x;
        } else {
          assert zs[i] == ys[i - 1];
        }
      }
    }
  }

  /** The rules of `rules` that `p` breaks, in their order. */
  function Broken(rules: seq<Rule>, p: string): (v: seq<Rule>)
    ensures forall r :: r in v <==> r in rules && !Holds(r, p)
    ensures InCheckingOrder(rules) ==> InCheckingOrder(v)
    decreases |rules|
  {
    if rules == [] then []
    else
      var rest := Broken(rules[1..], p);
      if Holds(rules[0], p) then rest
      else
        assert rules == [rules[0]] + rules[1..];
        ConsKeepsOrder(rules[0], rules[1..], rest);
        [rules[0]] + rest
  }

  /** The rules `p` breaks, each once and in the checking order. */
  function Violations(p: string): (v: seq<Rule>)
    ensures forall r: Rule :: r in v <==> !Holds(r, p)
    ensures InCheckingOrder(v)
    ensures v == [] <==> MeetsPolicy(p)
  {
    assert forall r: Rule :: r in AllRules by {
      forall r: Rule ensures r in AllRules {
        if r.MinLength? {
        } else if r.Uppercase? {
        } else if r.Lowercase? {
        } else if r.Number? {
        }
      }
    }
    Broken(AllRules, p)
  }

  /** The list of messages the reset form builds. */
  function PolicyMessages(p: string): (ms: seq<string>)
    ensures |ms| == |Violations(p)|
    ensures forall i :: 0 <= i < |ms| ==> ms[i] == RuleMessage(Violations(p)[i]) && ms[i] != ""
  {
    var v := Violations(p);
    seq(|v|, i requires 0 <= i < |v| => RuleMessage(v[i]))
  }

  /** The empty password breaks every rule. */
  lemma EmptyBreaksEveryRule()
    ensures Violations("") == AllRules
  {
    BrokenWhenNoneHold(AllRules, "");
  }

  /** When `p` breaks every rule of `rules`, all of them are reported. */
  lemma {:induction false} BrokenWhenNoneHold(rules: seq<Rule>, p: string)
    requires forall i | 0 <= i < |rules| :: !Holds(rules[i], p)
    ensures Broken(rules, p) == rules
    decreases |rules|
  {
    if rules != [] {
      BrokenWhenNoneHold(rules[1..], p);
      assert [rules[0]] + rules[1..] == rules;
    }
  }

  const PasswordRequired := "Password is required"

  /** The sign-up form's password check: required, then the policy messages
      joined with ". ". */
  function SignUpPasswordError(p: string): (msg: string)
    ensures p == "" ==> msg == PasswordRequired
    ensures p != "" ==> (msg == "" <==> MeetsPolicy(p))
    ensures p != "" ==> msg == Join(PolicyMessages(p), ". ")
  {
    if p == "" then PasswordRequired
    else
      JoinEmpty(PolicyMessages(p), ". ");
      Join(PolicyMessages(p), ". ")
  }

  // ---- The sign-up form (SignUp.jsx) ---------------------------------------

  /** On a non-empty password the two forms' validators agree: the sign-up
      form reports nothing exactly when the reset form's list is empty. */
  lemma ValidatorsAgree(p: string)
    requires p != ""
    ensures SignUpPasswordError(p) == "" <==> PolicyMessages(p) == []
  {
  }

  const Mismatch := "Passwords do not match"

  /** The confirmation error after an edit of the password field: flagged
      only when a confirmation has been typed and differs. */
  function ConfirmErrorOnPasswordEdit(value: string, confirm: string): (e: string)
    ensures e == "" || e == Mismatch
    ensures e == Mismatch <==> confirm != "" && value != confirm
  {
    if confirm != "" && value != confirm then Mismatch else ""
  }

  /** The confirmation error after an edit of the confirmation field:
      flagged whenever it differs from the password. */
  function ConfirmErrorOnConfirmEdit(password: string, value: string): (e: string)
    ensures e == "" || e == Mismatch
    ensures e == Mismatch <==> value != password
  {
    if value != password then Mismatch else ""
  }

  /** Clearing the confirmation field hides the mismatch when the password
      is edited afterwards, but shows it when the confirmation is edited. */
  lemma ClearedConfirmationIsAsymmetric(password: string)
    requires password != ""
    ensures ConfirmErrorOnPasswordEdit(password, "") == ""
    ensures ConfirmErrorOnConfirmEdit(password, "") == Mismatch
  {
  }

  datatype FieldErrors = FieldErrors(email: string, password: string, confirm: string)

  predicate NoErrors(e: FieldErrors)
  {
    e.email == "" && e.password == "" && e.confirm == ""
  }

  /** A back-end call a form makes through a thunk. */
  datatype Call =
    | SignInCall(email: string, password: string)
    | SignUpCall(email: string, password: string)
    | SignUpFormCall(form: SignUpForm)
    | ResetCall(token: string, password: string)

  /** A client-side navigation: target, whether it replaces the history
      entry, and the `message` carried in the navigation state. */
  datatype Nav = Nav(to: string, replace: bool, message: Option<string>)

  /** What one submit did: the actions it dispatched in order, the calls it
      made, and the navigation it ended with, if any. */
  datatype Run = Run(actions: seq<Action>, calls: seq<Call>, nav: Option<Nav>)

  datatype SignUpResult = SignUpResult(errors: FieldErrors, run: Run)

  /** The sign-up form's submit: validate all three fields; with no error,
      sign up, then sign in with the same credentials, then go to the
      role's path, replacing the history entry. A rejection stops the chain
      (the reducer shows its message). */
  function SignUpSubmit(email: string, password: string, confirm: string,
                        signUp: Reply<AuthBody>, signIn: Reply<AuthBody>): (r: SignUpResult)
    ensures NoErrors(r.errors) <==>
      email != "" && EmailDomain(email).Some? && EmailDomain(email).value in AllowedDomains
      && password != "" && MeetsPolicy(password) && password == confirm
    ensures r.errors.confirm == Mismatch <==> password != confirm
    ensures !NoErrors(r.errors) ==> r.run == Run([], [], None)
    ensures NoErrors(r.errors) ==> |r.run.calls| >= 1 && r.run.calls[0] == SignUpCall(email, password)
    ensures NoErrors(r.errors) && signUp.Ok? ==> r.run.calls == [SignUpCall(email, password), SignInCall(email, password)]
    ensures !signUp.Ok? ==> |r.run.calls| <= 1
    ensures r.run.nav.Some? <==> NoErrors(r.errors) && signUp.Ok? && signIn.Ok?
    ensures r.run.nav.Some? ==> r.run.nav.value == Nav("/" + Shown(signIn.data.user.role), true, None)
  {
    var errors := FieldErrors(ValidateEmail(email), SignUpPasswordError(password),
                              if password != confirm then Mismatch else "");
    if !NoErrors(errors) then SignUpResult(errors, Run([], [], None))
    else
      var first := SignUpOutcome(signUp);
      if !first.SignUpFulfilled? then
        SignUpResult(errors, Run([SignUpPending, first], [SignUpCall(email, password)], None))
      else
        var second := SignInOutcome(signIn);
        var calls := [SignUpCall(email, password), SignInCall(email, password)];
        var nav := if second.SignInFulfilled? then Some(Nav("/" + Shown(signIn.data.user.role), true, None)) else None;
        SignUpResult(errors, Run([SignUpPending, first, SignInPending, second], calls, nav))
  }

  /** A completed sign-up whose sign-in issues both tokens leaves the
      sign-in's user as a consistent logged-in session, no spinner, and a destination the role
      guard lets through. */
  lemma SignUpChainLogsIn(w: World, email: string, password: string, confirm: string,
                          signUp: Reply<AuthBody>, signIn: Reply<AuthBody>)
    requires var r := SignUpSubmit(email, password, confirm, signUp, signIn); r.run.nav.Some?
    requires Truthy(signIn.data.access) && Truthy(signIn.data.refresh)
    ensures var r := SignUpSubmit(email, password, confirm, signUp, signIn);
      var w' := ReduceAll(w, r.run.actions);
      && w'.state.user == UserFromBody(signIn.data)
      && w'.state.user.isLoggedIn
      && SessionConsistent(w'.state.user)
      && !w'.state.loading
      && w'.stored == Parsed(w'.state.user)
      && ProtectedRoute(w'.state, Location(r.run.nav.value.to, None, None)) == Render
  {
    var r := SignUpSubmit(email, password, confirm, signUp, signIn);
    var a1, a2, a3, a4 := SignUpPending, SignUpFulfilled(signUp.data), SignInPending, SignInFulfilled(signIn.data);
    assert r.run.actions == [a1, a2, a3, a4];
    var w1 := Reduce(w, a1);
    var w2 := Reduce(w1, a2);
    var w3 := Reduce(w2, a3);
    var w4 := Reduce(w3, a4);
    assert ReduceAll(w, r.run.actions) == ReduceAll(w1, [a2, a3, a4]);
    assert [a2, a3, a4][1..] == [a3, a4] && [a3, a4][1..] == [a4];
    assert ReduceAll(w1, [a2, a3, a4]) == ReduceAll(w2, [a3, a4]) == ReduceAll(w3, [a4]) == w4;
  }

  // ---- The reset-password form (ResetPassword.jsx) -------------------------

  const ResetDone := "Password has been reset successfully. Please login with your new password."
  /** The action type the forms use to report a local error. The slice has
      no reducer for it. */
  const SetErrorType := "auth/setError"

  datatype ResetResult = ResetResult(run: Run, success: bool)

  /** The reset form's submit: the policy is checked first, then the
      confirmation; a local failure is dispatched as an "auth/setError"
      action. Otherwise the reset call is made with the token from the
      route; on success the form locks and, after a delay, the page goes to
      "/login" carrying the server's message or a fixed one. */
  function ResetSubmit(password: string, confirm: string, token: string,
                       reply: Reply<Option<string>>): (r: ResetResult)
    ensures r.run.calls != [] <==> MeetsPolicy(password) && password == confirm
    ensures r.run.calls != [] ==> r.run.calls == [ResetCall(token, password)]
    ensures !MeetsPolicy(password) ==>
      r.run.actions == [Plain(SetErrorType, Some(Join(PolicyMessages(password), ". ")))]
    ensures MeetsPolicy(password) && password != confirm ==>
      r.run.actions == [Plain(SetErrorType, Some(Mismatch))]
    ensures r.success <==> r.run.calls != [] && reply.Ok?
    ensures r.run.nav.Some? <==> r.success
    ensures r.run.nav.Some? ==> r.run.nav.value.to == "/login" && !r.run.nav.value.replace
    ensures r.run.nav.Some? ==> Truthy(r.run.nav.value.message)
    ensures r.run.nav.Some? && Truthy(reply.data) ==> r.run.nav.value.message == reply.data
  {
    var broken := PolicyMessages(password);
    if broken != [] then
      ResetResult(Run([Plain(SetErrorType, Some(Join(broken, ". ")))], [], None), false)
    else if password != confirm then
      ResetResult(Run([Plain(SetErrorType, Some(Mismatch))], [], None), false)
    else
      var settled := ResetOutcome(reply);
      var nav := if settled.ResetFulfilled? then Some(Nav("/login", false, Some(OrElse(settled.notice, ResetDone)))) else None;
      ResetResult(Run([ResetPending, settled], [ResetCall(token, password)], nav), settled.ResetFulfilled?)
  }

  /** A locally rejected reset changes nothing in the store: the slice
      ignores "auth/setError", so the message the form meant to show never
      appears. */
  lemma LocalResetErrorInvisible(w: World, password: string, confirm: string, token: string,
                                 reply: Reply<Option<string>>)
    requires !MeetsPolicy(password) || password != confirm
    ensures ReduceAll(w, ResetSubmit(password, confirm, token, reply).run.actions) == w
  {
    var r := ResetSubmit(password, confirm, token, reply);
    var a := r.run.actions[0];
    assert r.run.actions == [a] && a.Plain? && a.kind == SetErrorType;
    UnknownTypesIgnored(w, a.payload);
    assert ReduceAll(w, [a]) == ReduceAll(Reduce(w, a), []);
  }

  /** The reset inputs and button are disabled while loading and after a
      successful reset. */
  predicate ResetFormLocked(loading: bool, success: bool)
  {
    loading || success
  }

  /** After a successful reset the form stays locked whatever the store's
      loading flag says; after a failed one it unlocks once loading ends. */
  lemma ResetLocksOnSuccess(w: World, password: string, confirm: string, token: string,
                            reply: Reply<Option<string>>)
    ensures var r := ResetSubmit(password, confirm, token, reply);
      var w' := ReduceAll(w, r.run.actions);
      r.success ==> ResetFormLocked(w'.state.loading, r.success) && !w'.state.loading
    ensures var r := ResetSubmit(password, confirm, token, reply);
      var w' := ReduceAll(w, r.run.actions);
      r.run.calls != [] && !r.success ==> !ResetFormLocked(w'.state.loading, r.success) && ShowsError(w'.state.error)
  {
    var r := ResetSubmit(password, confirm, token, reply);
    if r.run.calls != [] {
      var a := ResetOutcome(reply);
      assert r.run.actions == [ResetPending, a];
      assert ReduceAll(w, r.run.actions) == ReduceAll(Reduce(w, ResetPending), [a]);
      assert [ResetPending, a][1..] == [a];
      assert ReduceAll(Reduce(w, ResetPending), [a]) == Reduce(Reduce(w, ResetPending), a);
    }
  }

  // ---- The login form (Login.jsx) ------------------------------------------

  /** The success banner the login page (and the alternative sign-up page)
      starts with: the navigation state's message. */
  function LoginBanner(loc: Location): Option<string>
  {
    loc.message
  }

  /** A successful reset lands on the login page with its message shown. */
  lemma ResetMessageReachesLogin(password: string, confirm: string, token: string,
                                 reply: Reply<Option<string>>)
    requires ResetSubmit(password, confirm, token, reply).success
    ensures var nav := ResetSubmit(password, confirm, token, reply).run.nav.value;
      && nav.to == "/login"
      && LoginBanner(Location(nav.to, None, nav.message)) == nav.message
      && Truthy(LoginBanner(Location(nav.to, None, nav.message)))
  {
  }

  /** The login submit: sign in; on success go to the remembered page or
      else the role's path, replacing the history entry. */
  function LoginSubmit(loc: Location, email: string, password: string, reply: Reply<AuthBody>): (r: Run)
    ensures r.calls == [SignInCall(email, password)]
    ensures |r.actions| == 2 && r.actions[0] == SignInPending && r.actions[1] == SignInOutcome(reply)
    ensures r.nav.Some? <==> reply.Ok?
    ensures r.nav.Some? && Truthy(loc.from) ==> r.nav.value == Nav(loc.from.value, true, None)
    ensures r.nav.Some? && !Truthy(loc.from) ==> r.nav.value == Nav("/" + Shown(reply.data.user.role), true, None)
  {
    var settled := SignInOutcome(reply);
    var nav := if settled.SignInFulfilled?
      then Some(Nav(OrElse(loc.from, "/" + Shown(settled.body.user.role)), true, None))
      else None;
    Run([SignInPending, settled], [SignInCall(email, password)], nav)
  }

  /** The login button is disabled exactly while the store is loading. */
  predicate LoginLocked(auth: AuthState)
  {
    auth.loading
  }

  /** The button locks when the sign-in starts and unlocks once it settles,
      whatever the reply. */
  lemma LoginLockedWhileSigningIn(w: World, loc: Location, email: string, password: string,
                                  reply: Reply<AuthBody>)
    ensures var r := LoginSubmit(loc, email, password, reply);
      && LoginLocked(Reduce(w, r.actions[0]).state)
      && !LoginLocked(ReduceAll(w, r.actions).state)
  {
    var r := LoginSubmit(loc, email, password, reply);
    var w1 := Reduce(w, SignInPending);
    assert ReduceAll(w, r.actions) == ReduceAll(w1, [r.actions[1]]);
    assert ReduceAll(w1, [r.actions[1]]) == Reduce(w1, r.actions[1]);
  }

  /** The round trip through the login page: a visitor the role guard sent
      to "/login" who signs in and receives both tokens is taken back to
      the page they asked for, which the guard now renders. */
  lemma LoginReturnsToIntendedPage(w: World, loc: Location, email: string, password: string,
                                   reply: Reply<AuthBody>)
    requires loc.pathname != ""
    requires ProtectedRoute(w.state, loc).Redirect?
    requires reply.Ok? && Truthy(reply.data.access)
    ensures var d := ProtectedRoute(w.state, loc);
      var r := LoginSubmit(Location(d.to, d.from, None), email, password, reply);
      var w' := ReduceAll(w, r.actions);
      && d.to == "/login"
      && r.nav == Some(Nav(loc.pathname, true, None))
      && !LoginLocked(w'.state)
      && ProtectedRoute(w'.state, Location(loc.pathname, None, None)) == Render
  {
    var d := ProtectedRoute(w.state, loc);
    var r := LoginSubmit(Location(d.to, d.from, None), email, password, reply);
    assert r.actions == [SignInPending, SignInFulfilled(reply.data)];
    var w1 := Reduce(w, SignInPending);
    assert ReduceAll(w, r.actions) == ReduceAll(w1, [SignInFulfilled(reply.data)]);
    assert ReduceAll(w1, [SignInFulfilled(reply.data)]) == Reduce(w1, SignInFulfilled(reply.data));
  }

  /** The login page's dismiss button dispatches a hand-written action whose
      type the slice does not know, so the error stays. */
  const LoginDismiss := Plain("auth/removeAuthError", None)

  lemma LoginDismissKeepsError(w: World)
    requires ShowsError(w.state.error)
    ensures Reduce(w, LoginDismiss) == w
    ensures ShowsError(Reduce(w, LoginDismiss).state.error)
  {
    UnknownTypesIgnored(w, None);
  }

  // ---- The alternative sign-up page (SignUpPage.jsx) -----------------------

  datatype SignUpForm = SignUpForm(
    email: string,
    password: string,
    confirmPassword: string,
    registrationNumber: string,
    studentNumber: string)

  /** The alternative sign-up page: confirmation first, then only the length
      rule, then the sign-up call with the whole form; on success go to the
      remembered page or else the role's path. */
  function SignUpPageSubmit(form: SignUpForm, loc: Location, reply: Reply<AuthBody>): (r: Run)
    ensures r.calls != [] <==> form.password == form.confirmPassword && |form.password| >= 8
    ensures r.calls != [] ==> r.calls == [SignUpFormCall(form)]
    ensures form.password != form.confirmPassword ==> r.actions == [Plain(SetErrorType, Some(Mismatch))]
    ensures form.password == form.confirmPassword && |form.password| < 8 ==>
      r.actions == [Plain(SetErrorType, Some(RuleMessage(MinLength)))]
    ensures r.nav.Some? <==> r.calls != [] && reply.Ok?
    ensures r.nav.Some? && Truthy(loc.from) ==> r.nav.value == Nav(loc.from.value, true, None)
    ensures r.nav.Some? && !Truthy(loc.from) ==> r.nav.value == Nav("/" + Shown(reply.data.user.role), true, None)
  {
    if form.password != form.confirmPassword then
      Run([Plain(SetErrorType, Some(Mismatch))], [], None)
    else if |form.password| < 8 then
      Run([Plain(SetErrorType, Some(RuleMessage(MinLength)))], [], None)
    else
      var settled := SignUpOutcome(reply);
      var nav := if settled.SignUpFulfilled?
        then Some(Nav(OrElse(loc.from, "/" + Shown(settled.body.user.role)), true, None))
        else None;
      Run([SignUpPending, settled], [SignUpFormCall(form)], nav)
  }

  /** The two sign-up pages disagree: a long enough password without an
      uppercase letter reaches the server from the alternative page but is
      stopped by the main sign-up form. */
  lemma SignUpPagesDisagree(form: SignUpForm, loc: Location, reply: Reply<AuthBody>,
                            signIn: Reply<AuthBody>)
    requires form.password == form.confirmPassword && |form.password| >= 8
    requires forall i | 0 <= i < |form.password| :: !('A' <= form.password[i] <= 'Z')
    ensures SignUpPageSubmit(form, loc, reply).calls != []
    ensures SignUpSubmit(form.email, form.password, form.confirmPassword, reply, signIn).run.calls == []
  {
    assert !Holds(Uppercase, form.password);
  }
}

=== FILE: authreducer.dfy ===
/** The session slice of the front end: the user record, its persisted copy
    under the storage key "user", the startup load, the async thunks'
    outcomes and every case reducer of the slice. */
module AuthReducer {
  import opened Wrappers
  import opened Text
  import opened Wire

  datatype Tokens = Tokens(access: Option<string>, refresh: Option<string>)

  /** The user record kept in the slice and in storage. */
  datatype User = User(
    isLoggedIn: bool,
    username: Option<string>,
    email: Option<string>,
    programme: Option<int>,
    user_id: Option<int>,
    has_profile: bool,
    registration_number: Option<string>,
    student_number: Option<string>,
    role: Option<string>,
    tokens: Tokens)

  /** JavaScript truthiness of an optional string: present and non-empty. */
  predicate Truthy(v: Option<string>)
  {
    v.Some? && v.value != ""
  }

  /** The logged-out record used when nothing valid was stored. */
  const DefaultUser := User(false, None, None, None, None, false, None, None, None, Tokens(None, None))

  /** The slice's `error` field keeps `false` and `null` apart: different
      cases write different falsy values. */
  datatype ErrorField = ErrFalse | ErrNull | ErrText(text: string)

  /** Whether the `error` field is truthy, i.e. an error region is shown. */
  predicate ShowsError(e: ErrorField)
  {
    e.ErrText? && e.text != ""
  }

  datatype AuthState = AuthState(
    loading: bool,
    error: ErrorField,
    is_open: bool,
    years: seq<string>,
    user: User)

  /** The content under the storage key "user": nothing, text that does not
      parse to an object, or the object it parses to. Writes by the slice
      store the written record itself. */
  datatype Stored = Absent | Unparseable | Parsed(record: User)

  /** The startup load: a stored record is used only if it parses and
      carries a truthy access token; anything else, a parse failure
      included, counts as nothing saved. */
  function LoadSavedUser(stored: Stored): (saved: Option<User>)
    ensures saved.Some? <==> stored.Parsed? && Truthy(stored.record.tokens.access)
    ensures saved.Some? ==> saved.value == stored.record
  {
    match stored
    case Parsed(u) => if Truthy(u.tokens.access) then Some(u) else None
    case _ => None
  }

  /** The slice's initial state for a given startup snapshot. */
  function InitialState(saved: Option<User>): AuthState
  {
    AuthState(false, ErrFalse, false, [], saved.GetOr(DefaultUser))
  }

  /** Everything a dispatch can touch: the slice state, the stored record,
      the startup snapshot `savedUser` (which `initialState.user` aliases and
      the request gateway reads) and a pending hard navigation. */
  datatype World = World(state: AuthState, stored: Stored, snapshot: Option<User>, hardRedirect: Option<string>)

  /** The program start (also what a hard navigation leads to): load the
      snapshot and build the initial state from it. */
  function Startup(stored: Stored): (w: World)
    ensures w.stored == stored && w.hardRedirect == None
    ensures w.snapshot == LoadSavedUser(stored)
    ensures w.state.user == w.snapshot.GetOr(DefaultUser)
    ensures !w.state.loading && w.state.error == ErrFalse && !w.state.is_open && w.state.years == []
    ensures w.state.user == DefaultUser || Truthy(w.state.user.tokens.access)
  {
    var saved := LoadSavedUser(stored);
    World(InitialState(saved), stored, saved, None)
  }

  /** A startup from anything but a valid stored session is logged out. */
  lemma StartupFailsClosed(stored: Stored)
    requires !(stored.Parsed? && Truthy(stored.record.tokens.access))
    ensures Startup(stored).state.user == DefaultUser
    ensures !Startup(stored).state.user.isLoggedIn
    ensures Startup(stored).state.user.tokens == Tokens(None, None)
    ensures Startup(stored).snapshot == None
  {
  }

  /** A startup from a valid stored session restores it exactly. */
  lemma StartupRestores(u: User)
    requires Truthy(u.tokens.access)
    ensures Startup(Parsed(u)).state.user == u
    ensures Startup(Parsed(u)).snapshot == Some(u)
    ensures !Startup(Parsed(u)).state.loading
  {
  }

  datatype ProfileFields = ProfileFields(
    student_number: Option<string>,
    registration_number: Option<string>,
    programme: Option<int>)

  /** Every action the slice can receive. `Plain` is a hand-written action
      object `{type, payload}` dispatched by a page. */
  datatype Action =
    | SignInPending | SignInFulfilled(body: AuthBody) | SignInRejected(message: string)
    | SignUpPending | SignUpFulfilled(body: AuthBody) | SignUpRejected(message: string)
    | GetYearsFulfilled(years: seq<string>)
    | ForgotPending | ForgotFulfilled(notice: Option<string>) | ForgotRejected(reason: string)
    | ResetPending | ResetFulfilled(notice: Option<string>) | ResetRejected(reason: string)
    | RemoveAuthError | ToggleIsOpen | Logout | UpdateProfile(fields: ProfileFields)
    | Plain(kind: string, payload: Option<string>)

  predicate IsPending(a: Action)
  {
    a.SignInPending? || a.SignUpPending? || a.ForgotPending? || a.ResetPending?
  }

  predicate IsFulfilled(a: Action)
  {
    a.SignInFulfilled? || a.SignUpFulfilled? || a.ForgotFulfilled? || a.ResetFulfilled?
  }

  predicate IsRejected(a: Action)
  {
    a.SignInRejected? || a.SignUpRejected? || a.ForgotRejected? || a.ResetRejected?
  }

  /** The message a rejected action carries. */
  function RejectionText(a: Action): string
    requires IsRejected(a)
  {
    match a
    case SignInRejected(m) => m
    case SignUpRejected(m) => m
    case ForgotRejected(m) => m
    case ResetRejected(m) => m
  }

  /** The action type string the toolkit gives each action: thunks are
      named "auth/...", the slice's own reducers "AuthSlice/...". */
  function TypeOf(a: Action): (t: string)
    ensures a.Plain? ==> t == a.kind
  {
    match a
    case SignInPending => "auth/signin/pending"
    case SignInFulfilled(_) => "auth/signin/fulfilled"
    case SignInRejected(_) => "auth/signin/rejected"
    case SignUpPending => "auth/signup/pending"
    case SignUpFulfilled(_) => "auth/signup/fulfilled"
    case SignUpRejected(_) => "auth/signup/rejected"
    case GetYearsFulfilled(_) => "auth/getYears/fulfilled"
    case ForgotPending => "auth/forgotPassword/pending"
    case ForgotFulfilled(_) => "auth/forgotPassword/fulfilled"
    case ForgotRejected(_) => "auth/forgotPassword/rejected"
    case ResetPending => "auth/resetPassword/pending"
    case ResetFulfilled(_) => "auth/resetPassword/fulfilled"
    case ResetRejected(_) => "auth/resetPassword/rejected"
    case RemoveAuthError => "AuthSlice/removeAuthError"
    case ToggleIsOpen => "AuthSlice/toggle_is_open"
    case Logout => "AuthSlice/logout"
    case UpdateProfile(_) => "AuthSlice/update_profile"
    case Plain(k, _) => k
  }

  /** The thunks' actions are named under "auth/". */
  lemma ThunkTypesUnderAuth(a: Action)
    requires IsPending(a) || IsFulfilled(a) || IsRejected(a) || a.GetYearsFulfilled?
    ensures "auth/" < TypeOf(a)
  {
  }

  /** The slice's own reducers are named under "AuthSlice/", so a type
      written as "auth/<reducer>" reaches none of them. */
  lemma SliceTypesUnderAuthSlice(a: Action)
    requires a.RemoveAuthError? || a.ToggleIsOpen? || a.Logout? || a.UpdateProfile?
    ensures "AuthSlice/" < TypeOf(a)
    ensures !("auth/" <= TypeOf(a))
  {
    assert TypeOf(a)[0] == "AuthSlice/"[0] != "auth/"[0];
  }

  /** The case a hand-written action object reaches: the slice matches on
      the type string alone. Only cases that read no payload are resolved. */
  function Resolve(kind: string): (r: Option<Action>)
    ensures r.Some? ==> !r.value.Plain? && TypeOf(r.value) == kind
  {
    if kind == "auth/signin/pending" then Some(SignInPending)
    else if kind == "auth/signup/pending" then Some(SignUpPending)
    else if kind == "auth/forgotPassword/pending" then Some(ForgotPending)
    else if kind == "auth/resetPassword/pending" then Some(ResetPending)
    else if kind == "AuthSlice/removeAuthError" then Some(RemoveAuthError)
    else if kind == "AuthSlice/toggle_is_open" then Some(ToggleIsOpen)
    else if kind == "AuthSlice/logout" then Some(Logout)
    else None
  }

  /** The user record built from a sign-in or sign-up response. */
  function UserFromBody(b: AuthBody): (u: User)
    ensures u.isLoggedIn && u.email == Some(b.user.email) && u.tokens == Tokens(b.access, b.refresh)
    ensures u.username.Some? && '@' !in u.username.value && u.username.value <= b.user.email
    ensures |u.username.value| < |b.user.email| ==> b.user.email[|u.username.value|] == '@'
    ensures u.has_profile <==> b.user.has_profile == FlagText("true")
    ensures u.role == b.user.role && u.user_id == b.user.user_id && u.programme == b.user.programme
    ensures u.student_number == b.user.student_number && u.registration_number == b.user.registration_number
  {
    FirstSegmentIsPrefix(b.user.email, '@');
    User(
      isLoggedIn := true,
      username := Some(Split(b.user.email, '@')[0]),
      email := Some(b.user.email),
      programme := b.user.programme,
      user_id := b.user.user_id,
      has_profile := b.user.has_profile == FlagText("true"),
      registration_number := b.user.registration_number,
      student_number := b.user.student_number,
      role := b.user.role,
      tokens := Tokens(b.access, b.refresh))
  }

  /** The effect of one non-plain action. */
  function ReduceCase(w: World, a: Action): (w': World)
    requires !a.Plain?
    ensures w'.snapshot == w.snapshot
    ensures w'.hardRedirect == (if a.Logout? then Some("/login") else w.hardRedirect)
    ensures w'.stored != w.stored ==> a.Logout? || a.UpdateProfile? || a.SignInFulfilled? || a.SignUpFulfilled?
    ensures a.UpdateProfile? || a.SignInFulfilled? || a.SignUpFulfilled? ==> w'.stored == Parsed(w'.state.user)
    ensures w'.state.user != w.state.user ==>
      a.Logout? || a.UpdateProfile? || a.SignInFulfilled? || a.SignUpFulfilled?
  {
    var s := w.state;
    match a
    case RemoveAuthError => w.(state := s.(error := ErrFalse))
    case ToggleIsOpen => w.(state := s.(is_open := !s.is_open))
    case Logout =>
      w.(state := AuthState(false, ErrFalse, false, [], w.snapshot.GetOr(DefaultUser)),
         stored := Absent, hardRedirect := Some("/login"))
    case UpdateProfile(f) =>
      var u := s.user.(student_number := f.student_number,
                       registration_number := f.registration_number,
                       has_profile := true,
                       programme := f.programme);
      w.(state := s.(user := u), stored := Parsed(u))
    case SignInPending => w.(state := s.(loading := true, error := ErrFalse))
    case SignInFulfilled(b) =>
      var u := UserFromBody(b);
      w.(state := s.(loading := false, error := ErrFalse, user := u), stored := Parsed(u))
    case SignInRejected(m) => w.(state := s.(error := ErrText(m), loading := false))
    case SignUpPending => w.(state := s.(loading := true, error := ErrFalse))
    case SignUpFulfilled(b) =>
      var u := UserFromBody(b);
      w.(state := s.(loading := false, error := ErrFalse, user := u), stored := Parsed(u))
    case SignUpRejected(m) => w.(state := s.(error := ErrText(m), loading := false))
    case GetYearsFulfilled(ys) => w.(state := s.(years := ys))
    case ForgotPending => w.(state := s.(loading := true, error := ErrNull))
    case ForgotFulfilled(_) => w.(state := s.(loading := false, error := ErrNull))
    case ForgotRejected(m) => w.(state := s.(loading := false, error := ErrText(m)))
    case ResetPending => w.(state := s.(loading := true, error := ErrNull))
    case ResetFulfilled(_) => w.(state := s.(loading := false, error := ErrNull))
    case ResetRejected(m) => w.(state := s.(loading := false, error := ErrText(m)))
  }

  /** One dispatch. A hand-written action object whose type the slice does
      not know leaves everything unchanged. */
  function Reduce(w: World, a: Action): (w': World)
    ensures a.Plain? && Resolve(a.kind).None? ==> w' == w
    ensures w'.snapshot == w.snapshot
    ensures w'.hardRedirect != w.hardRedirect ==> w'.hardRedirect == Some("/login")
  {
    match a
    case Plain(k, _) =>
      (match Resolve(k)
       case Some(b) => ReduceCase(w, b)
       case None => w)
    case _ => ReduceCase(w, a)
  }

  /** Dispatching a sequence of actions in order. */
  function ReduceAll(w: World, actions: seq<Action>): World
    decreases |actions|
  {
    if actions == [] then w else ReduceAll(Reduce(w, actions[0]), actions[1..])
  }

  // ---- Thunk outcomes ----------------------------------------------------

  /** `value || fallback` on an optional string. */
  function OrElse(value: Option<string>, fallback: string): (r: string)
    ensures Truthy(value) ==> r == value.value
    ensures !Truthy(value) ==> r == fallback
  {
    if Truthy(value) then value.value else fallback
  }

  /** The sign-in thunk: a non-2xx reply is thrown as an error whose message
      is the body's `error` or "Login failed"; a failure without a response
      surfaces the platform's message. */
  function SignInOutcome(r: Reply<AuthBody>): (a: Action)
    ensures a.SignInFulfilled? <==> r.Ok?
    ensures a.SignInFulfilled? ==> a.body == r.data
    ensures r.NotOk? ==> a == SignInRejected(OrElse(r.error, "Login failed"))
    ensures r.NotOk? ==> a.message != ""
    ensures r.NoResponse? ==> a == SignInRejected(r.reason)
  {
    match r
    case Ok(d) => SignInFulfilled(d)
    case NotOk(e) => SignInRejected(OrElse(e, "Login failed"))
    case NoResponse(m) => SignInRejected(m)
  }

  /** The sign-up thunk, with the fallback "Signup failed". */
  function SignUpOutcome(r: Reply<AuthBody>): (a: Action)
    ensures a.SignUpFulfilled? <==> r.Ok?
    ensures a.SignUpFulfilled? ==> a.body == r.data
    ensures r.NotOk? ==> a == SignUpRejected(OrElse(r.error, "Signup failed"))
    ensures r.NotOk? ==> a.message != ""
    ensures r.NoResponse? ==> a == SignUpRejected(r.reason)
  {
    match r
    case Ok(d) => SignUpFulfilled(d)
    case NotOk(e) => SignUpRejected(OrElse(e, "Signup failed"))
    case NoResponse(m) => SignUpRejected(m)
  }

  /** The forgot-password thunk rejects with a value: the response's `error`
      or, also when there is no response, a fixed message. */
  function ForgotOutcome(r: Reply<Option<string>>): (a: Action)
    ensures a.ForgotFulfilled? <==> r.Ok?
    ensures a.ForgotFulfilled? ==> a.notice == r.data
    ensures r.NotOk? ==> a == ForgotRejected(OrElse(r.error, "Failed to send reset instructions"))
    ensures r.NoResponse? ==> a == ForgotRejected("Failed to send reset instructions")
    ensures a.ForgotRejected? ==> a.reason != ""
  {
    match r
    case Ok(d) => ForgotFulfilled(d)
    case NotOk(e) => ForgotRejected(OrElse(e, "Failed to send reset instructions"))
    case NoResponse(_) => ForgotRejected("Failed to send reset instructions")
  }

  /** The reset-password thunk, with the fallback "Failed to reset password". */
  function ResetOutcome(r: Reply<Option<string>>): (a: Action)
    ensures a.ResetFulfilled? <==> r.Ok?
    ensures a.ResetFulfilled? ==> a.notice == r.data
    ensures r.NotOk? ==> a == ResetRejected(OrElse(r.error, "Failed to reset password"))
    ensures r.NoResponse? ==> a == ResetRejected("Failed to reset password")
    ensures a.ResetRejected? ==> a.reason != ""
  {
    match r
    case Ok(d) => ResetFulfilled(d)
    case NotOk(e) => ResetRejected(OrElse(e, "Failed to reset password"))
    case NoResponse(_) => ResetRejected("Failed to reset password")
  }

  // ---- Properties of the reducer ----------------------------------------

  /** The state invariant the session is meant to keep: logged in exactly
      when both tokens are present. */
  predicate SessionConsistent(u: User)
  {
    u.isLoggedIn <==> Truthy(u.tokens.access) && Truthy(u.tokens.refresh)
  }

  /** Every pending action starts loading and clears the error. */
  lemma PendingStartsLoading(w: World, a: Action)
    requires IsPending(a)
    ensures Reduce(w, a).state.loading
    ensures !ShowsError(Reduce(w, a).state.error)
    ensures Reduce(w, a).state.user == w.state.user
    ensures Reduce(w, a).stored == w.stored
  {
  }

  /** Every fulfilled action stops loading without an error. */
  lemma FulfilledStopsLoading(w: World, a: Action)
    requires IsFulfilled(a)
    ensures !Reduce(w, a).state.loading
    ensures !ShowsError(Reduce(w, a).state.error)
  {
  }

  /** Every rejected action stops loading and records its message, leaving
      the session untouched. */
  lemma RejectedRecordsMessage(w: World, a: Action)
    requires IsRejected(a)
    ensures !Reduce(w, a).state.loading
    ensures Reduce(w, a).state.error == ErrText(RejectionText(a))
    ensures Reduce(w, a).state.user == w.state.user
    ensures Reduce(w, a).stored == w.stored
  {
  }

  /** Dismissing the error changes the error field and nothing else. */
  lemma RemoveAuthErrorOnlyClearsError(w: World)
    ensures Reduce(w, RemoveAuthError) == w.(state := w.state.(error := ErrFalse))
    ensures !ShowsError(Reduce(w, RemoveAuthError).state.error)
  {
  }

  /** Toggling the drawer twice restores it. */
  lemma ToggleTwiceRestores(w: World)
    ensures Reduce(Reduce(w, ToggleIsOpen), ToggleIsOpen) == w
    ensures Reduce(w, ToggleIsOpen).state.is_open == !w.state.is_open
  {
  }

  /** A fulfilled sign-in installs and persists exactly the user built from
      the response: the username is the email's text before the first "@",
      the profile flag is set only by the text "true", and the tokens are
      the response's. */
  lemma SignInInstallsUser(w: World, b: AuthBody)
    ensures var w' := Reduce(w, SignInFulfilled(b));
      var u := w'.state.user;
      && u.isLoggedIn
      && u.email == Some(b.user.email)
      && u.username.Some?
      && u.username.value <= b.user.email
      && '@' !in u.username.value
      && (|u.username.value| < |b.user.email| ==> b.user.email[|u.username.value|] == '@')
      && (u.has_profile <==> b.user.has_profile == FlagText("true"))
      && u.tokens == Tokens(b.access, b.refresh)
      && u.role == b.user.role
      && w'.stored == Parsed(u)
  {
    FirstSegmentIsPrefix(b.user.email, '@');
  }

  /** A sign-in whose response carries both tokens keeps the session
      invariant, and the persisted record survives a restart. */
  lemma SignInWithTokensConsistent(w: World, b: AuthBody)
    requires Truthy(b.access) && Truthy(b.refresh)
    ensures SessionConsistent(Reduce(w, SignInFulfilled(b)).state.user)
    ensures Startup(Reduce(w, SignInFulfilled(b)).stored).state.user == Reduce(w, SignInFulfilled(b)).state.user
  {
  }

  /** A fulfilled sign-up marks the user logged in even when the response
      carries no tokens, which breaks the session invariant, and such a
      session does not survive a restart. */
  lemma SignUpWithoutTokensInconsistent(w: World, b: AuthBody)
    requires b.access.None?
    ensures Reduce(w, SignUpFulfilled(b)).state.user.isLoggedIn
    ensures !Truthy(Reduce(w, SignUpFulfilled(b)).state.user.tokens.access)
    ensures !SessionConsistent(Reduce(w, SignUpFulfilled(b)).state.user)
    ensures !Startup(Reduce(w, SignUpFulfilled(b)).stored).state.user.isLoggedIn
  {
  }

  /** A profile update overwrites the three profile fields, sets the
      profile flag, keeps tokens, role, email and login flag, and persists
      the result. */
  lemma UpdateProfileMerges(w: World, f: ProfileFields)
    ensures var w' := Reduce(w, UpdateProfile(f));
      var u := w'.state.user;
      && u.student_number == f.student_number
      && u.registration_number == f.registration_number
      && u.programme == f.programme
      && u.has_profile
      && u.tokens == w.state.user.tokens
      && u.role == w.state.user.role
      && u.email == w.state.user.email
      && u.isLoggedIn == w.state.user.isLoggedIn
      && u == w.state.user.(student_number := f.student_number,
                            registration_number := f.registration_number,
                            programme := f.programme, has_profile := true)
      && w'.stored == Parsed(u)
      && w'.state.(user := w.state.user) == w.state
  {
  }

  /** Logout restores the startup user, resets the flags, removes the stored
      record and leaves for the login page; a restart then finds no session.
      Logging out twice is the same as logging out once. */
  lemma LogoutResets(w: World)
    ensures var w' := Reduce(w, Logout);
      && w'.state == AuthState(false, ErrFalse, false, [], w.snapshot.GetOr(DefaultUser))
      && w'.stored == Absent
      && w'.hardRedirect == Some("/login")
      && w'.snapshot == w.snapshot
      && Startup(w'.stored).state.user == DefaultUser
    ensures Reduce(Reduce(w, Logout), Logout) == Reduce(w, Logout)
  {
  }

  /** Action objects whose type the slice does not define change nothing.
      The login page's "auth/removeAuthError" is one: the slice's own type
      is "AuthSlice/removeAuthError". So is the pages' "auth/setError". */
  lemma UnknownTypesIgnored(w: World, p: Option<string>)
    ensures Reduce(w, Plain("auth/removeAuthError", p)) == w
    ensures Reduce(w, Plain("auth/setError", p)) == w
    ensures TypeOf(RemoveAuthError) != "auth/removeAuthError"
  {
  }

  /** An action object written with a case's own type reaches that case. */
  lemma PlainReachesCase(w: World, a: Action, p: Option<string>)
    requires IsPending(a) || a.RemoveAuthError? || a.ToggleIsOpen? || a.Logout?
    ensures Reduce(w, Plain(TypeOf(a), p)) == Reduce(w, a)
  {
    ResolveTypeOf(a);
  }

  /** Resolving a case's own type string gives back that case. */
  lemma ResolveTypeOf(a: Action)
    requires IsPending(a) || a.RemoveAuthError? || a.ToggleIsOpen? || a.Logout?
    ensures Resolve(TypeOf(a)) == Some(a)
  {
    match a
    case SignInPending =>
    case SignUpPending =>
    case ForgotPending =>
    case ResetPending =>
    case RemoveAuthError =>
    case ToggleIsOpen =>
    case Logout =>
  }
}

=== FILE: complaints.dfy ===
/** The registrar's view of one programme's registration complaints: the
    search-and-filter over the fetched list, the status colour, and the
    options of the year filter. */
module ComplaintFilter {
  import opened Wrappers
  import opened Text

  /** A registration complaint as the list endpoint returns it; the three
      searchable fields may be absent. */
  datatype Complaint = Complaint(
    subject: Option<string>,
    registration_number: Option<string>,
    student_number: Option<string>,
    status: string,
    year: string)

  /** The filter value that imposes no constraint. */
  const All := "all"

  /** `field?.toLowerCase().includes(term.toLowerCase())`: an absent field
      never matches. */
  predicate FieldMatches(field: Option<string>, term: string)
  {
    field.Some? && Contains(ToLower(field.value), ToLower(term))
  }

  predicate MatchesSearch(c: Complaint, term: string)
  {
    FieldMatches(c.subject, term) || FieldMatches(c.registration_number, term)
    || FieldMatches(c.student_number, term)
  }

  predicate MatchesChoice(choice: string, value: string)
  {
    choice == All || value == choice
  }

  /** The condition under which the list keeps a complaint. */
  predicate Kept(c: Complaint, term: string, status: string, year: string)
  {
    MatchesSearch(c, term) && MatchesChoice(status, c.status) && MatchesChoice(year, c.year)
  }

  /** Dropping the head of a subsequence keeps it a subsequence. */
  lemma {:induction false} SubsequenceTail<T>(xs: seq<T>, ys: seq<T>)
    requires xs != [] && IsSubsequence(xs, ys)
    ensures IsSubsequence(xs[1..], ys)
    decreases |ys|, 0
  {
    if xs[0] == ys[0] {
      SubsequenceCons(xs[1..], ys[0], ys[1..]);
      assert [ys[0]] + ys[1..] == ys;
    } else {
      SubsequenceTail(xs, ys[1..]);
      SubsequenceCons(xs[1..], ys[0], ys[1..]);
      assert [ys[0]] + ys[1..] == ys;
    }
  }

  /** A subsequence stays one when an element is put in front of the whole. */
  lemma {:induction false} SubsequenceCons<T>(xs: seq<T>, y: T, ys: seq<T>)
    requires IsSubsequence(xs, ys)
    ensures IsSubsequence(xs, [y] + ys)
    decreases |ys|, 1
  {
    if xs != [] {
      assert ([y] + ys)[1..] == ys;
      if xs[0] == y {
        SubsequenceTail(xs, ys);
      }
    }
  }

  /** `complaints.filter(...)`. */
  function Filter(cs: seq<Complaint>, term: string, status: string, year: string): (kept: seq<Complaint>)
    ensures IsSubsequence(kept, cs)
    ensures forall c :: c in kept <==> c in cs && Kept(c, term, status, year)
    ensures forall c :: multiset(kept)[c] == if Kept(c, term, status, year) then multiset(cs)[c] else 0
    decreases |cs|
  {
    if cs == [] then []
    else
      var rest := Filter(cs[1..], term, status, year);
      assert cs == [cs[0]] + cs[1..];
      if Kept(cs[0], term, status, year) then
        assert ([cs[0]] + rest)[1..] == rest;
        [cs[0]] + rest
      else
        SubsequenceCons(rest, cs[0], cs[1..]);
        rest
  }

  /** Every text contains the empty text. */
  lemma ContainsEmpty(s: string)
    ensures Contains(s, "")
  {
    assert "" <= s[0..];
  }

  /** With an empty search term the search keeps exactly the complaints that
      have at least one of the three fields. */
  lemma EmptyTermMatchesPresentFields(c: Complaint)
    ensures MatchesSearch(c, "") <==>
      c.subject.Some? || c.registration_number.Some? || c.student_number.Some?
  {
    if c.subject.Some? { ContainsEmpty(ToLower(c.subject.value)); }
    if c.registration_number.Some? { ContainsEmpty(ToLower(c.registration_number.value)); }
    if c.student_number.Some? { ContainsEmpty(ToLower(c.student_number.value)); }
  }

  /** The search ignores the case of the term. */
  lemma SearchIgnoresTermCase(c: Complaint, term: string)
    ensures MatchesSearch(c, term) <==> MatchesSearch(c, ToLower(term))
  {
    ToLowerIdempotent(term);
  }

  /** "all" for both filters leaves only the search condition. */
  lemma AllImposesNothing(cs: seq<Complaint>, term: string)
    ensures forall c :: c in Filter(cs, term, All, All) <==> c in cs && MatchesSearch(c, term)
  {
  }

  /** The "no complaints found" message is shown exactly when nothing is kept. */
  predicate ShowsEmptyState(kept: seq<Complaint>)
  {
    |kept| == 0
  }

  lemma EmptyStateIffNothingKept(cs: seq<Complaint>, term: string, status: string, year: string)
    ensures ShowsEmptyState(Filter(cs, term, status, year)) <==>
      forall i | 0 <= i < |cs| :: !Kept(cs[i], term, status, year)
  {
    var kept := Filter(cs, term, status, year);
    if kept != [] {
      assert kept[0] in kept;
    }
  }

  // ---- Status colour -------------------------------------------------------

  /** `getStatusColor`: the chip colour for a status, whatever its case. */
  function StatusColor(status: string): (colour: string)
    ensures colour == "warning" <==> ToLower(status) == "pending"
    ensures colour == "success" <==> ToLower(status) == "resolved"
    ensures colour == "error" <==> ToLower(status) == "rejected"
    ensures colour == "default" <==>
      ToLower(status) != "pending" && ToLower(status) != "resolved" && ToLower(status) != "rejected"
  {
    var s := ToLower(status);
    if s == "pending" then "warning"
    else if s == "resolved" then "success"
    else if s == "rejected" then "error"
    else "default"
  }

  lemma StatusColorIgnoresCase(status: string)
    ensures StatusColor(status) == StatusColor(ToLower(status))
  {
    ToLowerIdempotent(status);
  }

  // ---- Year options ----------------------------------------------------------

  function YearsOf(cs: seq<Complaint>): (ys: seq<string>)
    ensures |ys| == |cs|
    ensures forall i :: 0 <= i < |cs| ==> ys[i] == cs[i].year
  {
    seq(|cs|, i requires 0 <= i < |cs| => cs[i].year)
  }

  /** Position of the first occurrence of `y`. */
  function FirstIndex(ys: seq<string>, y: string): (k: nat)
    requires y in ys
    ensures k < |ys| && ys[k] == y && y !in ys[..k]
  {
    if ys[0] == y then 0
    else
      var k := FirstIndex(ys[1..], y);
      assert ys[..k + 1] == [ys[0]] + ys[1..][..k];
      k + 1
  }

  lemma {:induction false} FirstIndexInPrefix(ys: seq<string>, m: nat, y: string)
    requires m <= |ys| && y in ys[..m]
    ensures FirstIndex(ys, y) == FirstIndex(ys[..m], y)
  {
    var k := FirstIndex(ys[..m], y);
    assert ys[..m][..k] == ys[..k];
  }

  /** The distinct values of `ys` in first-occurrence order: the reference
      for JavaScript's `[...new Set(ys)]`. */
  function Distinct(ys: seq<string>): (r: seq<string>)
    ensures forall y :: y in r <==> y in ys
    ensures forall i, j :: 0 <= i < j < |r| ==> r[i] != r[j]
    ensures forall i, j :: 0 <= i < j < |r| ==> FirstIndex(ys, r[i]) < FirstIndex(ys, r[j])
    decreases |ys|
  {
    if ys == [] then []
    else
      var n := |ys| - 1;
      var r := Distinct(ys[..n]);
      assert ys == ys[..n] + [ys[n]];
      if ys[n] in r then r
      else
        forall x | x in r ensures FirstIndex(ys, x) == FirstIndex(ys[..n], x) < n {
          FirstIndexInPrefix(ys, n, x);
        }
        assert FirstIndex(ys, ys[n]) == n;
        r + [ys[n]]
  }

  /** The options of the year filter, collected in one pass. */
  method YearOptions(cs: seq<Complaint>) returns (years: seq<string>)
    ensures years == Distinct(YearsOf(cs))
    ensures forall y :: y in years <==> exists i | 0 <= i < |cs| :: cs[i].year == y
    ensures forall i, j :: 0 <= i < j < |years| ==> years[i] != years[j]
  {
    years := [];
    var i := 0;
    while i < |cs|
      invariant 0 <= i <= |cs|
      invariant years == Distinct(YearsOf(cs[..i]))
    {
      var ys := YearsOf(cs[..i + 1]);
      assert ys[..i] == YearsOf(cs[..i]);
      assert ys[i] == cs[i].year;
      if cs[i].year !in years {
        years := years + [cs[i].year];
      }
      i := i + 1;
    }
    assert cs[..i] == cs;
    forall y ensures y in years <==> exists i | 0 <= i < |cs| :: cs[i].year == y {
      if y in years {
        var k :| 0 <= k < |YearsOf(cs)| && YearsOf(cs)[k] == y;
        assert cs[k].year == y;
      }
    }
  }
}

=== FILE: consistency.dfy ===
/** How the front end and the back end fit together: the responses of the
    Django views fed through the front end's thunks, reducer and guards,
    and the two e-mail checks compared. */
module Consistency {
  import opened Wrappers
  import opened Text
  import opened Wire
  import opened AuthReducer
  import opened Routing
  import AuthForms
  import Views

  /** How the sign-in and sign-up thunks read a view's response: a 2xx body
      is the payload (a sign-up body has no tokens); otherwise the body's
      `error`, if any, is the message. */
  function AuthReply(r: Views.Response): (reply: Reply<AuthBody>)
    ensures r.body.LoginBody? && 200 <= r.status < 300 ==> reply == Ok(r.body.auth)
    ensures r.body.ErrorBody? && !(200 <= r.status < 300) ==> reply == NotOk(Some(r.body.error))
  {
    if 200 <= r.status < 300 then
      match r.body
      case LoginBody(auth) => Ok(auth)
      case SignUpBody(m, u) => Ok(AuthBody(None, None, Some(m), u))
      case _ => NotOk(None)
    else
      match r.body
      case ErrorBody(e) => NotOk(Some(e))
      case _ => NotOk(None)
  }

  /** How the reset thunk reads a view's response: the payload's `message`
      on success, the `error` otherwise. */
  function NoticeReply(r: Views.Response): (reply: Reply<Option<string>>)
    ensures r.body.MessageBody? && 200 <= r.status < 300 ==> reply == Ok(Some(r.body.message))
  {
    if 200 <= r.status < 300 then
      match r.body
      case MessageBody(m) => Ok(Some(m))
      case _ => Ok(None)
    else
      match r.body
      case ErrorBody(e) => NotOk(Some(e))
      case _ => NotOk(None)
  }

  // ---- The two e-mail checks -----------------------------------------------

  /** The segment after the first separator occurs in the text. */
  lemma SecondSegmentOccurs(s: string, sep: char)
    requires |Split(s, sep)| >= 2
    ensures Contains(s, Split(s, sep)[1])
  {
    var parts := Split(s, sep);
    var first := parts[0];
    FirstSegmentIsPrefix(s, sep);
    OccurrencesPositive(s, sep);
    var rest := s[|first| + 1..];
    assert s == first + [sep] + rest;
    SplitAfterSegment(first, sep, rest);
    FirstSegmentIsPrefix(rest, sep);
    assert parts[1] <= s[|first| + 1..];
  }

  /** Every address the sign-up form accepts passes the back end's domain
      check. */
  lemma FrontAcceptanceImpliesBackAcceptance(email: string)
    requires AuthForms.ValidateEmail(email) == ""
    ensures Views.DomainAccepted(email)
  {
    var parts := Split(email, '@');
    SecondSegmentOccurs(email, '@');
    assert parts[1] == Views.StudentDomain || parts[1] == Views.StaffDomain;
  }

  /** The converse fails: the back end accepts an address whose domain
      merely starts with the student domain, which the form refuses. */
  lemma BackAcceptsWhatFrontRefuses(local: string, suffix: string)
    requires '@' !in local && '@' !in suffix && suffix != ""
    ensures var email := local + "@" + (Views.StudentDomain + suffix);
      AuthForms.ValidateEmail(email) != "" && Views.DomainAccepted(email)
  {
    var domain := Views.StudentDomain + suffix;
    assert '@' !in Views.StudentDomain;
    assert '@' !in domain;
    AuthForms.EmailAcceptance(local, domain, None);
    assert |domain| > |Views.StudentDomain| > |Views.StaffDomain|;
    var email := local + "@" + domain;
    assert email[|local| + 1..] == domain;
  }

  /** An address of the staff domain whose local part contains the student
      domain passes the form and is given the student role. */
  lemma StaffAddressGetsStudentRole(local: string)
    requires '@' !in local && Contains(local, Views.StudentDomain)
    ensures var email := local + "@" + Views.StaffDomain;
      AuthForms.ValidateEmail(email) == "" && Views.RoleFor(email) == "student"
  {
    assert '@' !in Views.StaffDomain;
    AuthForms.EmailAcceptance(local, Views.StaffDomain, None);
    var email := local + "@" + Views.StaffDomain;
    var k :| 0 <= k <= |local| && Views.StudentDomain <= local[k..];
    assert local[k..] <= email[k..];
  }

  // ---- Sessions built from the views' responses -----------------------------

  /** `has_profile` survives the trip: the login view sends it as text and
      the reducer reads it back exactly. */
  lemma ProfileFlagRoundTrip(s: Views.Store, email: string, password: string, access: string, refresh: string,
                             w: World)
    requires Views.LoginView(s, Some(email), Some(password), access, refresh).status == 200
    ensures var r := Views.LoginView(s, Some(email), Some(password), access, refresh);
      var a := s.users[Views.UserWithEmail(s.users, email).value];
      Reduce(w, SignInOutcome(AuthReply(r))).state.user.has_profile == a.has_profile
  {
  }

  /** A successful login opens a consistent session whose role area the
      guard renders. */
  lemma LoginOpensRoleArea(s: Views.Store, email: string, password: string, access: string, refresh: string,
                           w: World)
    requires Views.LoginView(s, Some(email), Some(password), access, refresh).status == 200
    requires access != "" && refresh != ""
    ensures var r := Views.LoginView(s, Some(email), Some(password), access, refresh);
      var w' := Reduce(w, SignInOutcome(AuthReply(r)));
      var a := s.users[Views.UserWithEmail(s.users, email).value];
      && SessionConsistent(w'.state.user)
      && w'.state.user.role == Some(a.role)
      && ProtectedRoute(w'.state, Location("/" + a.role, None, None)) == Render
  {
  }

  /** The request the sign-up form sends: only the two credentials. */
  function FormRequest(email: string, password: string): Views.SignUpRequest
  {
    Views.SignUpRequest(Some(email), Some(password), None, None)
  }

  /** The request the alternative sign-up page sends: its form object as it
      is. Its number fields are spelled `studentNumber` and
      `registrationNumber`, not the account's field names, so they do not
      reach the account. */
  function PageRequest(form: AuthForms.SignUpForm): Views.SignUpRequest
  {
    Views.SignUpRequest(Some(form.email), Some(form.password), None, None)
  }

  /** The sign-up form against the back end: an address and password the
      form accepts, not yet registered, sign up, sign in and land in the
      role area sign-up assigned, with a consistent session. */
  lemma SignUpFormReachesRoleArea(s: Views.Store, email: string, password: string, valid: bool,
                                  access: string, refresh: string, w: World)
    requires Views.UniqueEmails(s.users) && Views.UserWithEmail(s.users, email).None? && valid
    requires AuthForms.ValidateEmail(email) == "" && AuthForms.SignUpPasswordError(password) == ""
    requires access != "" && refresh != ""
    ensures var up := Views.SignUpView(s, FormRequest(email, password), valid);
      var signIn := AuthReply(Views.LoginView(up.store, Some(email), Some(password), access, refresh));
      var r := AuthForms.SignUpSubmit(email, password, password, AuthReply(up.response), signIn);
      var w' := ReduceAll(w, r.run.actions);
      && up.response.status == 201
      && r.run.nav == Some(AuthForms.Nav("/" + Views.RoleFor(email), true, None))
      && SessionConsistent(w'.state.user)
      && w'.state.user.role == Some(Views.RoleFor(email))
      && ProtectedRoute(w'.state, Location("/" + Views.RoleFor(email), None, None)) == Render
  {
    var req := FormRequest(email, password);
    FrontAcceptanceImpliesBackAcceptance(email);
    var up := Views.SignUpView(s, req, valid);
    assert up.response.status == 201;
    Views.SignUpThenLogin(s, req, valid, access, refresh);
    var signIn := AuthReply(Views.LoginView(up.store, Some(email), Some(password), access, refresh));
    AuthForms.SignUpChainLogsIn(w, email, password, password, AuthReply(up.response), signIn);
  }

  /** The alternative sign-up page relies on the sign-up response alone,
      which carries no tokens: the session it leaves claims to be logged
      in, and the guard sends the page's destination back to the login. */
  lemma SignUpPageStrandsSession(s: Views.Store, form: AuthForms.SignUpForm, loc: Location, valid: bool, w: World)
    requires form.password == form.confirmPassword && |form.password| >= 8
    requires !Truthy(loc.from)
    requires Views.SignUpView(s, PageRequest(form), valid).response.status == 201
    ensures var reply := AuthReply(Views.SignUpView(s, PageRequest(form), valid).response);
      var run := AuthForms.SignUpPageSubmit(form, loc, reply);
      var w' := ReduceAll(w, run.actions);
      && run.nav.Some?
      && run.nav.value.to == "/" + Views.RoleFor(form.email)
      && w'.state.user.isLoggedIn
      && !SessionConsistent(w'.state.user)
      && ProtectedRoute(w'.state, Location(run.nav.value.to, None, None))
         == Redirect("/login", true, Some(run.nav.value.to))
  {
    var reply := AuthReply(Views.SignUpView(s, PageRequest(form), valid).response);
    var run := AuthForms.SignUpPageSubmit(form, loc, reply);
    var b := reply.data;
    assert run.actions == [SignUpPending, SignUpFulfilled(b)];
    var w1 := Reduce(w, SignUpPending);
    assert ReduceAll(w, run.actions) == ReduceAll(w1, [SignUpFulfilled(b)]);
    assert ReduceAll(w1, [SignUpFulfilled(b)]) == Reduce(w1, SignUpFulfilled(b));
  }

    /** The forgot-password view through the thunk and the slice: the spinner
      stops, an accepted request (200) clears the error, and a refusal (400,
      429, or 500 when the mail cannot be sent) shows the server's own
      message. */
  lemma ForgotReachesSlice(w: World, s: Views.Store, email: Option<string>, now: int, token: string, sent: bool)
    ensures var out := Views.ForgotPasswordView(s, email, now, token, sent).response;
      var w' := Reduce(w, ForgotOutcome(NoticeReply(out)));
      && !w'.state.loading
      && (w'.state.error == ErrNull <==> out.status == 200)
      && (out.status != 200 ==> w'.state.error == ErrText(out.body.error))
      && (out.status == 429 ==> w'.state.error == ErrText(Views.AlreadyRequested))
      && (out.status == 500 ==> w'.state.error == ErrText(Views.MailFailed))
  {
    var out := Views.ForgotPasswordView(s, email, now, token, sent).response;
    if out.status != 200 {
      assert out.body.ErrorBody?;
      assert NoticeReply(out) == NotOk(Some(out.body.error));
    }
  }

/** When the session clean-up fails, the reset has already happened but
      the page reports "Failed to reset password" and stays on the form; a
      second attempt with the same link is refused. */
  lemma CleanupFailureHidesReset(s: Views.Store, token: string, password: string, now: int, later: int)
    requires AuthForms.MeetsPolicy(password)
    requires Views.UniqueTokenTexts(s.resetTokens)
    requires Views.ResetApplies(s, token, Some(password), true, now)
    ensures var out := Views.ResetPasswordView(s, token, Some(password), true, now, false);
      var r := AuthForms.ResetSubmit(password, password, token, NoticeReply(out.response));
      && out.response.status == 500
      && out.store != s
      && !r.success && r.run.nav.None?
      && r.run.actions[1] == ResetRejected("Failed to reset password")
      && Views.ResetPasswordView(out.store, token, Some(password), true, later, true).response
         == Views.Response(400, Views.ErrorBody(Views.ResetRefused))
  {
    var out := Views.ResetPasswordView(s, token, Some(password), true, now, false);
    var i := Views.UsableToken(s.resetTokens, token, now).value;
    Views.ConsumedTextUnusable(s.resetTokens, i, now);
    Views.CountUsableZero(out.store.resetTokens, token, now);
    assert Views.CountUsable(out.store.resetTokens, token, now) == 0;
    Views.TokenSingleUse(s, token, password, password, now, later, false, true);
  }

/** The message of a successful reset reaches the login page's banner. */
  lemma ResetMessageReachesBanner(s: Views.Store, token: string, password: string, now: int, cleared: bool)
    requires AuthForms.MeetsPolicy(password)
    requires Views.ResetPasswordView(s, token, Some(password), true, now, cleared).response.status == 200
    ensures var reply := NoticeReply(Views.ResetPasswordView(s, token, Some(password), true, now, cleared).response);
      var nav := AuthForms.ResetSubmit(password, password, token, reply).run.nav;
      && nav.Some?
      && AuthForms.LoginBanner(Location(nav.value.to, None, nav.value.message))
         == Some(Views.ResetDoneMessage)
  {
  }
}

=== FILE: gateway.dfy ===
/** The request gateway: the two interceptors installed on the HTTP client.
    The request side attaches the startup snapshot's access token; the
    response side answers a 401 by refreshing the access token, meaning to
    retry the request once, and abandons the stored session when it cannot.
    The model assumes the refresh call itself never answers 401. */
module Gateway {
  import opened Wrappers
  import opened AuthReducer

  /** The parts of an outgoing request the interceptors read and write. */
  datatype Request = Request(retried: bool, authorization: Option<string>)

  /** What the token-refresh call returned: a new access token, or any
      failure. The call itself is an external input to this model. */
  datatype RefreshResult = Refreshed(access: string) | RefreshFailed

  /** The server's answer to one attempt: success, or a failure with its
      status code (absent when there was no response). */
  datatype Response = Success | Failure(status: Option<int>)

  /** The request interceptor: a truthy access token in the startup
      snapshot becomes the bearer header; otherwise the header is left as
      it was. The live slice state is never consulted. */
  function Authorize(snapshot: Option<User>, req: Request): (out: Request)
    ensures out.retried == req.retried
    ensures snapshot.Some? && Truthy(snapshot.value.tokens.access) ==>
      out.authorization == Some("Bearer " + snapshot.value.tokens.access.value)
    ensures !(snapshot.Some? && Truthy(snapshot.value.tokens.access)) ==> out == req
  {
    if snapshot.Some? && Truthy(snapshot.value.tokens.access)
    then req.(authorization := Some("Bearer " + snapshot.value.tokens.access.value))
    else req
  }

  /** Whether the startup snapshot takes the refresh handler's write. The
      slice deep-freezes its initial state, whose user is the snapshot, so
      in the running code the write throws and the handler's catch runs
      (`Frozen`). `Writable` is the behaviour the handler was written for:
      the token is replaced and the request replayed. */
  datatype SnapshotMode = Frozen | Writable

  datatype Verdict = Rejected | Replay(request: Request)

  /** What the error handler did with one failed attempt. */
  datatype Handled = Handled(
    verdict: Verdict,
    refreshCalls: nat,
    snapshot: Option<User>,
    stored: Stored,
    hardRedirect: Option<string>)

  /** The response interceptor's error handler. A 401 on a request not yet
      retried marks it retried and tries a refresh with the snapshot's
      refresh token. After a good refresh the handler writes the new access
      token into the snapshot: on a frozen snapshot that write throws; on a
      writable one the token is replaced (in the snapshot and in storage)
      and the request is replayed with the new bearer token. With no
      refresh token, a failed refresh or a throwing write, the stored record
      is removed and the page leaves for "/login". Anything else is rejected
      untouched. */
  function OnError(mode: SnapshotMode, snapshot: Option<User>, stored: Stored, req: Request, status: Option<int>,
                   refresh: RefreshResult): (h: Handled)
    ensures h.refreshCalls <= 1
    ensures h.refreshCalls == 1 <==>
      status == Some(401) && !req.retried && snapshot.Some? && Truthy(snapshot.value.tokens.refresh)
    ensures h.verdict.Replay? ==> mode.Writable? && h.verdict.request.retried && h.refreshCalls == 1
    ensures (status != Some(401) || req.retried) ==>
      h == Handled(Rejected, 0, snapshot, stored, None)
    ensures h.hardRedirect.Some? ==> h.hardRedirect == Some("/login") && h.stored == Absent && h.verdict.Rejected?
    ensures h.hardRedirect.Some? <==>
      status == Some(401) && !req.retried &&
      (snapshot.None? || !Truthy(snapshot.value.tokens.refresh) || refresh.RefreshFailed? || mode.Frozen?)
    ensures h.hardRedirect.None? ==> h.verdict.Replay? || h.stored == stored
  {
    if status == Some(401) && !req.retried then
      var marked := req.(retried := true);
      if snapshot.None? || !Truthy(snapshot.value.tokens.refresh) then
        Handled(Rejected, 0, snapshot, Absent, Some("/login"))
      else
        match refresh
        case RefreshFailed => Handled(Rejected, 1, snapshot, Absent, Some("/login"))
        case Refreshed(access) =>
          if mode.Frozen? then Handled(Rejected, 1, snapshot, Absent, Some("/login"))
          else
            var u := snapshot.value;
            var u' := u.(tokens := u.tokens.(access := Some(access)));
            Handled(Replay(marked.(authorization := Some("Bearer " + access))), 1, Some(u'), Parsed(u'), None)
    else
      Handled(Rejected, 0, snapshot, stored, None)
  }

  /** The fate of one request after all its attempts. */
  datatype Outcome = Outcome(
    delivered: bool,
    attempts: nat,
    refreshCalls: nat,
    snapshot: Option<User>,
    stored: Stored,
    hardRedirect: Option<string>)

  /** One request through both interceptors: each attempt consumes the next
      server response. A replay is an ordinary request again, so it passes
      the request interceptor and the error handler like the first attempt.
      A replay's own failure is not caught by the handler's recovery, so it
      is rejected without removing the session. */
  function Exchange(mode: SnapshotMode, snapshot: Option<User>, stored: Stored, req: Request,
                    responses: seq<Response>, refresh: RefreshResult): (o: Outcome)
    requires |responses| >= 1
    ensures o.attempts >= 1
    ensures o.refreshCalls <= (if req.retried then 0 else 1)
    ensures o.attempts <= (if req.retried then 1 else 2)
    ensures o.delivered ==> o.hardRedirect == None
    ensures mode.Frozen? ==> o.attempts == 1 && o.snapshot == snapshot
    decreases |responses|
  {
    var sent := Authorize(snapshot, req);
    match responses[0]
    case Success => Outcome(true, 1, 0, snapshot, stored, None)
    case Failure(status) =>
      var h := OnError(mode, snapshot, stored, sent, status, refresh);
      match h.verdict
      case Rejected => Outcome(false, 1, h.refreshCalls, h.snapshot, h.stored, h.hardRedirect)
      case Replay(again) =>
        if |responses| == 1 then Outcome(false, 1, h.refreshCalls, h.snapshot, h.stored, h.hardRedirect)
        else
          var rest := Exchange(mode, h.snapshot, h.stored, again, responses[1..], refresh);
          rest.(attempts := rest.attempts + 1, refreshCalls := rest.refreshCalls + h.refreshCalls)
  }

  /** As written: a 401 followed by a good refresh still ends the session.
      On the frozen snapshot the token write throws, so the request is not
      replayed, the stored record is removed and the page leaves for
      "/login", where a writable snapshot would have delivered it. */
  lemma GoodRefreshStillLogsOut(u: User, stored: Stored, access: string)
    requires Truthy(u.tokens.refresh)
    ensures var o := Exchange(Frozen, Some(u), stored, Request(false, None), [Failure(Some(401)), Success],
                              Refreshed(access));
      && !o.delivered
      && o.attempts == 1
      && o.refreshCalls == 1
      && o.stored == Absent
      && o.hardRedirect == Some("/login")
      && !Startup(o.stored).state.user.isLoggedIn
    ensures Exchange(Writable, Some(u), stored, Request(false, None), [Failure(Some(401)), Success],
                     Refreshed(access)).delivered
  {
    var h := OnError(Frozen, Some(u), stored, Authorize(Some(u), Request(false, None)), Some(401), Refreshed(access));
    assert h == Handled(Rejected, 1, Some(u), Absent, Some("/login"));
  }

  /** As intended: a 401 followed by a good refresh and a successful replay
      delivers the request with the new access token in the snapshot and in
      storage, everything else of the stored user unchanged. */
  lemma RefreshThenReplay(u: User, stored: Stored, access: string)
    requires Truthy(u.tokens.refresh)
    ensures var o := Exchange(Writable, Some(u), stored, Request(false, None), [Failure(Some(401)), Success],
                              Refreshed(access));
      && o.delivered
      && o.attempts == 2
      && o.refreshCalls == 1
      && o.snapshot == Some(u.(tokens := Tokens(Some(access), u.tokens.refresh)))
      && o.stored == Parsed(u.(tokens := Tokens(Some(access), u.tokens.refresh)))
  {
  }

  /** As intended: a second 401 on the replay is rejected without another
      refresh and without abandoning the refreshed session. */
  lemma SecondUnauthorizedRejected(u: User, stored: Stored, access: string)
    requires Truthy(u.tokens.refresh)
    ensures var o := Exchange(Writable, Some(u), stored, Request(false, None),
                              [Failure(Some(401)), Failure(Some(401)), Success], Refreshed(access));
      && !o.delivered
      && o.attempts == 2
      && o.refreshCalls == 1
      && o.hardRedirect == None
      && o.stored.Parsed?
  {
  }

  /** Without a refresh token, or when the refresh fails, a 401 removes the
      stored record and leaves for the login page, which a restart then
      opens logged out. */
  lemma UnrecoverableUnauthorized(mode: SnapshotMode, snapshot: Option<User>, stored: Stored,
                                  responses: seq<Response>, refresh: RefreshResult)
    requires |responses| >= 1 && responses[0] == Failure(Some(401))
    requires snapshot.None? || !Truthy(snapshot.value.tokens.refresh) || refresh.RefreshFailed?
    ensures var o := Exchange(mode, snapshot, stored, Request(false, None), responses, refresh);
      && !o.delivered
      && o.stored == Absent
      && o.hardRedirect == Some("/login")
      && !Startup(o.stored).state.user.isLoggedIn
  {
  }

  /** Failures other than 401 are rejected without a refresh and without
      touching the session. */
  lemma OtherFailuresPassThrough(mode: SnapshotMode, snapshot: Option<User>, stored: Stored, req: Request,
                                 responses: seq<Response>, refresh: RefreshResult)
    requires |responses| >= 1 && responses[0].Failure? && responses[0].status != Some(401)
    ensures Exchange(mode, snapshot, stored, req, responses, refresh) == Outcome(false, 1, 0, snapshot, stored, None)
  {
  }

  /** The bearer token comes from the startup snapshot: after signing in in
      a session that started logged out, requests still carry no token,
      although the slice holds one. */
  lemma BearerFromSnapshot(w: World, b: Wire.AuthBody, req: Request)
    requires w.snapshot.None?
    requires Truthy(b.access)
    ensures var w' := Reduce(w, SignInFulfilled(b));
      && Truthy(w'.state.user.tokens.access)
      && Authorize(w'.snapshot, req) == req
  {
  }

  /** As intended: logout restores the snapshot, which a refresh on a
      writable snapshot updates in place, so logging out after a refresh
      brings back the refreshed access token. */
  lemma LogoutAfterRefresh(w: World, access: string, stored: Stored)
    requires w.snapshot.Some? && Truthy(w.snapshot.value.tokens.refresh)
    ensures var h := OnError(Writable, w.snapshot, stored, Request(false, None), Some(401), Refreshed(access));
      Reduce(w.(snapshot := h.snapshot, stored := h.stored), Logout).state.user.tokens.access == Some(access)
  {
  }
}

=== FILE: routing.dfy ===
/** Route guarding: the two guard components, the application's route
    table, the not-found page's redirect and the registrar shell. */
module Routing {
  import opened Wrappers
  import opened Text
  import opened AuthReducer

  /** The router location: the path and the two fields of the navigation
      state the pages read (`state.from`, `state.message`). */
  datatype Location = Location(pathname: string, from: Option<string>, message: Option<string>)

  /** What a guard or page does: show a spinner, render its content, or
      navigate elsewhere, optionally replacing the history entry and
      carrying a `from` path in the navigation state. */
  datatype Decision = Wait | Render | Redirect(to: string, replace: bool, from: Option<string>)

  /** JavaScript's rendering of an optional string in a template literal.
      `None` stands for an explicit null, rendered "null"; a role key that
      is missing altogether would render "undefined", which this model
      does not distinguish. */
  function Shown(v: Option<string>): string
  {
    match v
    case Some(t) => t
    case None => "null"
  }

  /** The role's landing path, "/login" for an unknown role. */
  function RoleHome(role: Option<string>): string
  {
    if role == Some("student") then "/student"
    else if role == Some("lecturer") then "/lecturer"
    else if role == Some("registrar") then "/registrar"
    else "/login"
  }

  predicate KnownRole(role: Option<string>)
  {
    role == Some("student") || role == Some("lecturer") || role == Some("registrar")
  }

  /** For the three known roles the path the pages build from the role is
      the role's home; a missing role gives "/null". */
  lemma RolePathIsHome(role: Option<string>)
    ensures KnownRole(role) ==> "/" + Shown(role) == RoleHome(role)
    ensures role.None? ==> "/" + Shown(role) == "/null"
  {
  }

  /** Guard for the role areas: wait while loading, send a visitor without
      an access token to "/login" remembering where they were, otherwise
      render. Neither the login flag nor the role is consulted. */
  function ProtectedRoute(auth: AuthState, loc: Location): (d: Decision)
    ensures auth.loading ==> d == Wait
    ensures !auth.loading && !Truthy(auth.user.tokens.access) ==>
      d == Redirect("/login", true, Some(loc.pathname))
    ensures !auth.loading && Truthy(auth.user.tokens.access) ==> d == Render
    ensures d != Render <==> auth.loading || !Truthy(auth.user.tokens.access)
  {
    if auth.loading then Wait
    else if !Truthy(auth.user.tokens.access) then Redirect("/login", true, Some(loc.pathname))
    else Render
  }

  /** Guard for the public pages: wait while loading; a visitor with an
      access token anywhere but "/" is sent to the remembered destination,
      else to the role's landing path; everyone else sees the page. */
  function AuthRoute(auth: AuthState, loc: Location): (d: Decision)
    ensures auth.loading ==> d == Wait
    ensures !auth.loading && (!Truthy(auth.user.tokens.access) || loc.pathname == "/") ==> d == Render
    ensures d.Redirect? <==> !auth.loading && Truthy(auth.user.tokens.access) && loc.pathname != "/"
    ensures d.Redirect? ==> d.replace && d.from == Some(loc.pathname)
    ensures d.Redirect? && Truthy(loc.from) ==> d.to == loc.from.value
    ensures d.Redirect? && !Truthy(loc.from) ==> d.to == RoleHome(auth.user.role)
  {
    if auth.loading then Wait
    else if Truthy(auth.user.tokens.access) && loc.pathname != "/" then
      Redirect(OrElse(loc.from, RoleHome(auth.user.role)), true, Some(loc.pathname))
    else Render
  }

  /** The not-found page: a visitor whose record says logged in is sent to
      "/" followed by the role, without replacing history; anyone else sees
      the 404 view. The access token is not consulted. */
  function NotFoundPage(auth: AuthState): (d: Decision)
    ensures d.Redirect? <==> auth.user.isLoggedIn
    ensures d.Redirect? ==> d == Redirect("/" + Shown(auth.user.role), false, None)
    ensures !d.Redirect? ==> d == Render
  {
    if auth.user.isLoggedIn then Redirect("/" + Shown(auth.user.role), false, None) else Render
  }

  /** Where the not-found view's recovery link leads. */
  const NotFoundLink := "/"

  datatype Page =
    | Splash | LoginPage | SignUpPage | ForgotPasswordPage | ResetPasswordPage(token: string)
    | LecturerArea | StudentArea | RegistrarArea | Missing

  datatype Guard = PublicOnly | Restricted | Unguarded

  /** The segments a path presents to the route table: the parts between
      slashes after the leading one, with trailing empty parts dropped. The
      router's patterns accept any number of trailing slashes but no empty
      segment anywhere else, so "//login" keeps an empty first segment. */
  function Segments(path: string): (segs: seq<string>)
    ensures forall i :: 0 <= i < |segs| ==> '/' !in segs[i]
    ensures segs == [] || segs[|segs| - 1] != ""
  {
    DropTrailingEmpty(Split(path, '/')[1..])
  }

  function DropTrailingEmpty(parts: seq<string>): (r: seq<string>)
    ensures r <= parts
    ensures r == [] || r[|r| - 1] != ""
    ensures forall i | |r| <= i < |parts| :: parts[i] == ""
    decreases |parts|
  {
    if parts == [] then []
    else if parts[|parts| - 1] == "" then DropTrailingEmpty(parts[..|parts| - 1])
    else parts
  }

  /** The application's route table. The router reads an empty pathname as
      "/"; every pattern starts with "/", so any other pathname that does
      not is unmatched. */
  function Match(path: string): Page
  {
    if path == "" then Splash
    else if path[0] != '/' then Missing
    else MatchSegments(Segments(path))
  }

  /** The route table on a path's segments. The three role areas match
      by their first segment, so every path below them is theirs. */
  function MatchSegments(segs: seq<string>): (p: Page)
    ensures p == Splash <==> segs == []
    ensures GuardOf(p) == Restricted <==>
      |segs| >= 1 && (segs[0] == "lecturer" || segs[0] == "student" || segs[0] == "registrar")
    ensures p.ResetPasswordPage? <==> |segs| == 2 && segs[0] == "reset-password"
  {
    if segs == [] then Splash
    else if segs == ["login"] then LoginPage
    else if segs == ["signup"] then SignUpPage
    else if segs == ["forgot-password"] then ForgotPasswordPage
    else if |segs| == 2 && segs[0] == "reset-password" then ResetPasswordPage(segs[1])
    else if segs[0] == "lecturer" then LecturerArea
    else if segs[0] == "student" then StudentArea
    else if segs[0] == "registrar" then RegistrarArea
    else Missing
  }

  /** Which guard wraps each page. */
  function GuardOf(p: Page): Guard
  {
    match p
    case Splash | LoginPage | SignUpPage | ForgotPasswordPage | ResetPasswordPage(_) => PublicOnly
    case LecturerArea | StudentArea | RegistrarArea => Restricted
    case Missing => Unguarded
  }

  /** The decision for a navigation: the matched page's guard, or the
      not-found page's own check for unmatched paths. */
  function Navigate(auth: AuthState, loc: Location): (d: Decision)
    ensures GuardOf(Match(loc.pathname)) == Restricted ==> d == ProtectedRoute(auth, loc)
    ensures GuardOf(Match(loc.pathname)) == PublicOnly ==> d == AuthRoute(auth, loc)
    ensures GuardOf(Match(loc.pathname)) == Unguarded ==> d == NotFoundPage(auth)
  {
    match GuardOf(Match(loc.pathname))
    case Restricted => ProtectedRoute(auth, loc)
    case PublicOnly => AuthRoute(auth, loc)
    case Unguarded => NotFoundPage(auth)
  }

  /** A single-word absolute path has that word as its only segment. */
  lemma SegmentsOfWord(w: string)
    requires w != "" && '/' !in w
    ensures Segments("/" + w) == [w]
  {
    assert "/" + w == [] + ['/'] + w;
    SplitAfterSegment([], '/', w);
    SplitWithoutSeparator(w, '/');
    assert Split("/" + w, '/') == ["", w];
    assert ["", w][1..] == [w];
  }

  /** A trailing slash adds no segment. */
  lemma SegmentsOfWordSlash(w: string)
    requires w != "" && '/' !in w
    ensures Segments("/" + w + "/") == [w]
  {
    var p := "/" + w + "/";
    assert p == [] + ['/'] + (w + ['/'] + []);
    SplitAfterSegment([], '/', w + ['/'] + []);
    SplitAfterSegment(w, '/', []);
    assert Split(p, '/') == ["", w, ""];
    assert ["", w, ""][1..] == [w, ""];
    assert [w, ""][..1] == [w];
    assert DropTrailingEmpty([w, ""]) == DropTrailingEmpty([w]) == [w];
  }

  /** A single-word absolute path goes to the page its one segment selects. */
  lemma WordRoute(w: string, page: Page)
    requires w != "" && '/' !in w && MatchSegments([w]) == page
    ensures Match("/" + w) == page
  {
    SegmentsOfWord(w);
  }

  /** The root path has no segments: it is the splash page. */
  lemma MatchesRoot()
    ensures Match("/") == Splash
  {
    assert "/" == [] + ['/'] + [];
    SplitAfterSegment([], '/', []);
    assert Split("/", '/') == ["", ""];
    assert ["", ""][1..] == [""];
  }

  lemma MatchesLogin()
    ensures Match("/login") == LoginPage
  {
    WordRoute("login", LoginPage);
  }

  lemma MatchesStudent()
    ensures Match("/student") == StudentArea
  {
    WordRoute("student", StudentArea);
  }

  lemma MatchesLecturer()
    ensures Match("/lecturer") == LecturerArea
  {
    WordRoute("lecturer", LecturerArea);
  }

  lemma MatchesRegistrar()
    ensures Match("/registrar") == RegistrarArea
  {
    WordRoute("registrar", RegistrarArea);
  }

  /** The page a role area's word selects. */
  function AreaOf(w: string): Page
  {
    if w == "lecturer" then LecturerArea
    else if w == "student" then StudentArea
    else RegistrarArea
  }

  /** A path's segments come from the split of what follows its first slash. */
  lemma SegmentsAfterSlash(tail: string)
    ensures Segments("/" + tail) == DropTrailingEmpty(Split(tail, '/'))
  {
    assert "/" + tail == [] + ['/'] + tail;
    SplitAfterSegment([], '/', tail);
    assert Split("/" + tail, '/')[1..] == Split(tail, '/');
  }

  /** The first part of a split is a separator-free word iff the text starts
      with that word followed by the separator or the end. */
  lemma FirstPartIs(tail: string, w: string)
    requires w != "" && '/' !in w
    ensures Split(tail, '/')[0] == w <==>
      |tail| >= |w| && tail[..|w|] == w && (|tail| == |w| || tail[|w|] == '/')
  {
    FirstSegmentIsPrefix(tail, '/');
  }

  /** The segment table sends a list to a role area iff it starts with
      that area's word. */
  lemma AreaOfFirst(w: string, segs: seq<string>)
    requires w == "lecturer" || w == "student" || w == "registrar"
    ensures MatchSegments(segs) == AreaOf(w) <==> segs != [] && segs[0] == w
  {
  }

  /** Dropping trailing empty parts keeps a non-empty first part. */
  lemma DropKeepsFirst(parts: seq<string>, w: string)
    requires |parts| >= 1 && w != ""
    ensures var r := DropTrailingEmpty(parts); r != [] && r[0] == w <==> parts[0] == w
  {
  }

  /** The role areas' catch-all patterns: a path after its leading slash
      is in an area iff it starts with the area's word, followed by nothing
      or by a "/" and anything at all. (A path without the leading slash
      matches no pattern.) */
  lemma AreaPattern(w: string, tail: string)
    requires w == "lecturer" || w == "student" || w == "registrar"
    ensures Match("/" + tail) == AreaOf(w) <==>
      |tail| >= |w| && tail[..|w|] == w && (|tail| == |w| || tail[|w|] == '/')
  {
    SegmentsAfterSlash(tail);
    var segs := Segments("/" + tail);
    assert Match("/" + tail) == MatchSegments(segs);
    AreaOfFirst(w, segs);
    DropKeepsFirst(Split(tail, '/'), w);
    FirstPartIs(tail, w);
  }

  /** The splash pattern: a path is the splash page iff it is made of
      slashes alone (the empty pathname reads as "/"). */
  lemma SplashIsOnlySlashes(path: string)
    ensures Match(path) == Splash <==> forall i | 0 <= i < |path| :: path[i] == '/'
  {
    if path != "" && path[0] == '/' {
      var tail := path[1..];
      assert path == "/" + tail;
      SegmentsAfterSlash(tail);
      SplitAllEmpty(tail, '/');
      var parts := Split(tail, '/');
      assert Segments(path) == [] <==> forall i | 0 <= i < |parts| :: parts[i] == "";
      assert (forall i | 0 <= i < |path| :: path[i] == '/') <==> (forall i | 0 <= i < |tail| :: tail[i] == '/');
    }
  }

  /** Every segment of a split is empty iff the text is separators alone. */
  lemma {:induction false} SplitAllEmpty(s: string, sep: char)
    ensures var parts := Split(s, sep);
      (forall i | 0 <= i < |parts| :: parts[i] == "") <==> forall i | 0 <= i < |s| :: s[i] == sep
    decreases |s|
  {
    if s != [] {
      SplitAllEmpty(s[1..], sep);
      var rest := Split(s[1..], sep);
      var parts := Split(s, sep);
      if s[0] == sep {
        assert parts == [[]] + rest;
        assert forall i | 1 <= i < |parts| :: parts[i] == rest[i - 1];
        assert forall i | 0 <= i < |rest| :: rest[i] == parts[i + 1];
        assert forall i | 1 <= i < |s| :: s[i] == s[1..][i - 1];
        assert forall i | 0 <= i < |s| - 1 :: s[1..][i] == s[i + 1];
      } else {
        assert parts[0] == [s[0]] + rest[0] != "";
      }
    }
  }

  /** A doubled slash before "login" leaves an empty first segment, so the
      path reaches the not-found page. */
  lemma DoubledSlashMissesLogin()
    ensures Match("//login") == Missing
  {
    var parts := ["", "login"];
    assert Join([ "login"], "/") == "login";
    assert parts[1..] == ["login"];
    assert Join(parts, "/") == "" + "/" + Join(["login"], "/");
    assert "//login" == "/" + Join(parts, "/");
    SegmentsOfJoin(parts);
  }

  /** A path built from separator-free parts has those parts as its
      segments, less the trailing empty ones. */
  lemma SegmentsOfJoin(parts: seq<string>)
    requires |parts| >= 1
    requires forall i :: 0 <= i < |parts| ==> '/' !in parts[i]
    ensures Segments("/" + Join(parts, "/")) == DropTrailingEmpty(parts)
  {
    SegmentsAfterSlash(Join(parts, "/"));
    JoinThenSplit(parts, '/');
  }

  /** A doubled slash inside the reset link adds an empty segment, so the
      link reaches the not-found page. */
  lemma DoubledSlashMissesReset(t: string)
    requires t != "" && '/' !in t
    ensures Match("/reset-password//" + t) == Missing
  {
    var parts := ["reset-password", "", t];
    assert Join([t], "/") == t;
    assert Join(["", t], "/") == "" + "/" + Join(["", t][1..], "/");
    assert ["", t][1..] == [t] && parts[1..] == ["", t];
    assert Join(parts, "/") == "reset-password" + "/" + Join(["", t], "/");
    assert "/reset-password//" + t == "/" + Join(parts, "/");
    SegmentsOfJoin(parts);
  }

  /** Trailing slashes after the reset token are accepted. */
  lemma TrailingSlashKeepsReset(t: string)
    requires t != "" && '/' !in t
    ensures Match("/reset-password/" + t + "/") == ResetPasswordPage(t)
  {
    var parts := ["reset-password", t, ""];
    assert Join([""], "/") == "";
    assert Join([t, ""], "/") == t + "/" + Join([t, ""][1..], "/");
    assert [t, ""][1..] == [""] && parts[1..] == [t, ""];
    assert Join(parts, "/") == "reset-password" + "/" + Join([t, ""], "/");
    assert "/reset-password/" + t + "/" == "/" + Join(parts, "/");
    SegmentsOfJoin(parts);
    assert DropTrailingEmpty(parts) == DropTrailingEmpty(parts[..2]);
  }

  /** A known role's landing path is a restricted area. */
  lemma RoleHomeIsRestricted(role: Option<string>)
    requires KnownRole(role)
    ensures GuardOf(Match(RoleHome(role))) == Restricted
  {
    MatchesStudent();
    MatchesLecturer();
    MatchesRegistrar();
  }

  /** An unknown role's fallback is the login page, itself public-only. */
  lemma UnknownRoleFallsBackToLogin(role: Option<string>)
    requires !KnownRole(role)
    ensures RoleHome(role) == "/login"
    ensures Match(RoleHome(role)) == LoginPage
  {
    MatchesLogin();
  }

  /** A restricted page is never rendered without an access token. */
  lemma RestrictedNeedsToken(auth: AuthState, loc: Location)
    requires GuardOf(Match(loc.pathname)) == Restricted
    requires !Truthy(auth.user.tokens.access)
    ensures Navigate(auth, loc) != Render
    ensures !auth.loading ==> Navigate(auth, loc) == Redirect("/login", true, Some(loc.pathname))
  {
  }

  /** The restricted guard does not look at the login flag or the role. */
  lemma ProtectedIgnoresFlagAndRole(auth: AuthState, loc: Location, loggedIn: bool, role: Option<string>)
    ensures ProtectedRoute(auth.(user := auth.user.(isLoggedIn := loggedIn, role := role)), loc)
         == ProtectedRoute(auth, loc)
  {
  }

  /** A signed-in student with no remembered destination who opens a public
      page other than the splash is sent to "/student", a restricted page. */
  lemma StudentSentHome(auth: AuthState, path: string)
    requires !auth.loading && Truthy(auth.user.tokens.access) && auth.user.role == Some("student")
    requires GuardOf(Match(path)) == PublicOnly && path != "/"
    ensures Navigate(auth, Location(path, None, None)) == Redirect("/student", true, Some(path))
    ensures GuardOf(Match("/student")) == Restricted
  {
    MatchesStudent();
  }

  /** With a token and an unknown role, the login page redirects to itself,
      and following that redirect gives the same redirect again. */
  lemma UnknownRoleLoopsOnLogin(auth: AuthState, from: Option<string>)
    requires !auth.loading && Truthy(auth.user.tokens.access) && !KnownRole(auth.user.role)
    requires !Truthy(from)
    ensures var d := Navigate(auth, Location("/login", from, None));
      && d == Redirect("/login", true, Some("/login"))
      && Navigate(auth, Location(d.to, d.from, None)) == d
  {
    MatchesLogin();
  }

  /** The not-found page trusts the login flag, the restricted guard the
      token: a record of a known role that says logged in but holds no
      token is sent from an unknown path to its role's area and from there
      to the login page. */
  lemma NotFoundAndGuardDisagree(auth: AuthState, path: string)
    requires !auth.loading && auth.user.isLoggedIn && !Truthy(auth.user.tokens.access)
    requires KnownRole(auth.user.role)
    requires Match(path) == Missing
    ensures Navigate(auth, Location(path, None, None)) == Redirect(RoleHome(auth.user.role), false, None)
    ensures var home := RoleHome(auth.user.role);
      Navigate(auth, Location(home, None, None)) == Redirect("/login", true, Some(home))
  {
    MissingSendsRoleHome(auth, path);
    var home := RoleHome(auth.user.role);
    RoleHomeIsRestricted(auth.user.role);
    RestrictedNeedsToken(auth, Location(home, None, None));
  }

  /** A flagged-in user of a known role on an unmatched path is sent to the
      role's home. */
  lemma MissingSendsRoleHome(auth: AuthState, path: string)
    requires auth.user.isLoggedIn && KnownRole(auth.user.role)
    requires Match(path) == Missing
    ensures Navigate(auth, Location(path, None, None)) == Redirect(RoleHome(auth.user.role), false, None)
  {
    RolePathIsHome(auth.user.role);
  }

  // ---- Registrar shell ---------------------------------------------------

  datatype RegistrarView = RegistrarIndex | ComplaintDetail(id: string) | ProgrammeComplaintsList(id: string) | NoView

  /** The registrar shell's outcome: its nested view and whether the Home
      button shows, or a redirect for anyone who is not the registrar. */
  datatype Shell = Shell(view: RegistrarView, homeButton: bool) | ShellRedirect(to: string)

  /** The nested route table below "/registrar". It reads what follows
      "/registrar" (or "/" when nothing does), whose segments are the
      path's own after the first. */
  function RegistrarSubroute(path: string): (v: RegistrarView)
    ensures v != NoView ==> Match(path) == RegistrarArea
  {
    if path != "" && path[0] == '/' then SubrouteSegments(Segments(path)) else NoView
  }

  function SubrouteSegments(segs: seq<string>): (v: RegistrarView)
    ensures v != NoView ==> |segs| >= 1 && segs[0] == "registrar"
  {
    if |segs| >= 1 && segs[0] == "registrar" then
      var rest := segs[1..];
      if rest == [] then RegistrarIndex
      else if |rest| == 2 && rest[0] == "complaints" then ComplaintDetail(rest[1])
      else if |rest| == 3 && rest[0] == "programme" && rest[1] != "" && rest[2] == "complaints" then ProgrammeComplaintsList(rest[1])
      else NoView
    else NoView
  }

  /** Where the Home button leads. */
  const RegistrarHome := "/registrar"

  /** The registrar shell: only the registrar role gets it; the Home button
      shows on every path except exactly "/registrar". */
  function RegistrarShell(auth: AuthState, pathname: string): (sh: Shell)
    ensures sh.Shell? <==> auth.user.role == Some("registrar")
    ensures sh.ShellRedirect? ==> sh.to == "/"
    ensures sh.Shell? ==> (sh.homeButton <==> pathname != RegistrarHome)
  {
    if auth.user.role == Some("registrar")
    then Shell(RegistrarSubroute(pathname), pathname != RegistrarHome)
    else ShellRedirect("/")
  }

  /** Pressing Home lands on the index, where the button is hidden. */
  lemma HomeLandsOnIndex(auth: AuthState)
    requires auth.user.role == Some("registrar")
    ensures RegistrarShell(auth, RegistrarHome) == Shell(RegistrarIndex, false)
  {
    SegmentsOfWord("registrar");
    assert SubrouteSegments(["registrar"]) == RegistrarIndex;
  }

  /** With a trailing slash the index view still shows the Home button. */
  lemma TrailingSlashShowsHome(auth: AuthState)
    requires auth.user.role == Some("registrar")
    ensures RegistrarShell(auth, RegistrarHome + "/") == Shell(RegistrarIndex, true)
  {
    var p := RegistrarHome + "/";
    assert p == "/" + "registrar" + "/";
    SegmentsOfWordSlash("registrar");
    assert SubrouteSegments(["registrar"]) == RegistrarIndex;
    assert p != RegistrarHome;
  }

  /** A signed-in user of another role passes the restricted guard on a
      registrar path, is sent by the shell to "/", and the splash renders. */
  lemma OtherRoleBouncesToSplash(auth: AuthState, path: string)
    requires !auth.loading && Truthy(auth.user.tokens.access)
    requires auth.user.role != Some("registrar")
    requires Match(path) == RegistrarArea
    ensures Navigate(auth, Location(path, None, None)) == Render
    ensures RegistrarShell(auth, path) == ShellRedirect("/")
    ensures Match("/") == Splash && Navigate(auth, Location("/", None, None)) == Render
  {
    MatchesRoot();
  }
}

=== FILE: text.dfy ===
/** String helpers shared by the front end (JavaScript) and the back end
    (Python). Strings are ASCII `seq<char>`: Unicode case folding and Unicode
    digit classes are not modelled. */
module Text {

  /** Number of occurrences of `c` in `s`. */
  function Occurrences(s: string, c: char): nat
  {
    if s == [] then 0 else (if s[0] == c then 1 else 0) + Occurrences(s[1..], c)
  }

  lemma {:induction false} OccurrencesPositive(s: string, c: char)
    ensures Occurrences(s, c) > 0 <==> c in s
    decreases |s|
  {
    if s != [] {
      OccurrencesPositive(s[1..], c);
      assert c in s <==> s[0] == c || c in s[1..];
    }
  }

  /** Splits `s` at every occurrence of the one-character separator `sep`,
      keeping empty segments: JavaScript's `s.split(sep)` and Python's
      `s.split(sep)` agree on this. */
  function Split(s: string, sep: char): (parts: seq<string>)
    ensures |parts| == 1 + Occurrences(s, sep)
    ensures forall i :: 0 <= i < |parts| ==> sep !in parts[i]
    decreases |s|
  {
    if s == [] then [[]]
    else
      var rest := Split(s[1..], sep);
      if s[0] == sep then [[]] + rest
      else [[s[0]] + rest[0]] + rest[1..]
  }

  /** JavaScript's `parts.join(sep)`. */
  function Join(parts: seq<string>, sep: string): string
  {
    if |parts| == 0 then []
    else if |parts| == 1 then parts[0]
    else parts[0] + sep + Join(parts[1..], sep)
  }

  /** Joining non-empty segments gives the empty text only for no segments. */
  lemma {:induction false} JoinEmpty(parts: seq<string>, sep: string)
    requires forall i :: 0 <= i < |parts| ==> parts[i] != ""
    ensures Join(parts, sep) == "" <==> parts == []
  {
    if |parts| >= 2 {
      assert Join(parts, sep) == parts[0] + sep + Join(parts[1..], sep);
      assert |Join(parts, sep)| >= |parts[0]| > 0;
    }
  }

  /** Joining the segments of a split with the separator gives the text back. */
  lemma {:induction false} SplitThenJoin(s: string, sep: char)
    ensures Join(Split(s, sep), [sep]) == s
    decreases |s|
  {
    if s != [] {
      var rest := Split(s[1..], sep);
      SplitThenJoin(s[1..], sep);
      if s[0] == sep {
        assert Split(s, sep) == [[]] + rest;
        assert ([[]] + rest)[1..] == rest;
      } else {
        var parts := [[s[0]] + rest[0]] + rest[1..];
        assert Split(s, sep) == parts;
        if |rest| == 1 {
          assert Join(parts, [sep]) == [s[0]] + rest[0];
        } else {
          assert parts[1..] == rest[1..];
          assert Join(rest, [sep]) == rest[0] + [sep] + Join(rest[1..], [sep]);
        }
      }
    }
  }

  /** Splitting a text that has no separator gives the text as its only segment. */
  lemma {:induction false} SplitWithoutSeparator(a: string, sep: char)
    requires sep !in a
    ensures Split(a, sep) == [a]
    decreases |a|
  {
    if a != [] {
      SplitWithoutSeparator(a[1..], sep);
      assert a[0] != sep;
      assert [a[0]] + a[1..] == a;
    }
  }

  /** A separator-free prefix followed by the separator becomes the first segment. */
  lemma {:induction false} SplitAfterSegment(a: string, sep: char, b: string)
    requires sep !in a
    ensures Split(a + [sep] + b, sep) == [a] + Split(b, sep)
    decreases |a|
  {
    if a == [] {
      assert [sep] + b == a + [sep] + b;
      assert ([sep] + b)[1..] == b;
    } else {
      SplitAfterSegment(a[1..], sep, b);
      var s := a + [sep] + b;
      assert s[0] == a[0] && a[0] != sep;
      assert s[1..] == a[1..] + [sep] + b;
      assert [a[0]] + a[1..] == a;
    }
  }

  /** The converse round trip: joining separator-free segments and splitting
      again gives the segments back. */
  lemma {:induction false} JoinThenSplit(parts: seq<string>, sep: char)
    requires |parts| >= 1
    requires forall i :: 0 <= i < |parts| ==> sep !in parts[i]
    ensures Split(Join(parts, [sep]), sep) == parts
    decreases |parts|
  {
    if |parts| == 1 {
      SplitWithoutSeparator(parts[0], sep);
    } else {
      JoinThenSplit(parts[1..], sep);
      SplitAfterSegment(parts[0], sep, Join(parts[1..], [sep]));
    }
  }

  /** The first segment of a split is the text before the first separator. */
  lemma {:induction false} FirstSegmentIsPrefix(s: string, sep: char)
    ensures var first := Split(s, sep)[0];
      && first <= s
      && sep !in first
      && (|first| < |s| ==> s[|first|] == sep)
      && (sep !in s ==> first == s)
    decreases |s|
  {
    if s != [] {
      FirstSegmentIsPrefix(s[1..], sep);
    }
  }

  /** `sub` occurs in `s` as a contiguous block (Python's `sub in s`,
      JavaScript's `s.includes(sub)`). */
  predicate Contains(s: string, sub: string)
  {
    exists i | 0 <= i <= |s| :: sub <= s[i..]
  }

  /** ASCII lower-casing of one character. */
  function LowerChar(c: char): char
  {
    if 'A' <= c <= 'Z' then (c as int - 'A' as int + 'a' as int) as char else c
  }

  /** ASCII `toLowerCase()`. */
  function ToLower(s: string): (r: string)
    ensures |r| == |s|
    ensures forall i :: 0 <= i < |s| ==> r[i] == LowerChar(s[i])
  {
    seq(|s|, i requires 0 <= i < |s| => LowerChar(s[i]))
  }

  lemma ToLowerIdempotent(s: string)
    ensures ToLower(ToLower(s)) == ToLower(s)
  {
  }

  predicate IsDigit(c: char)
  {
    '0' <= c <= '9'
  }

  /** Python's `str.isdigit()` restricted to ASCII: non-empty and all digits. */
  predicate IsDigits(s: string)
  {
    |s| > 0 && forall i :: 0 <= i < |s| ==> IsDigit(s[i])
  }

  /** Python's `int(s)` on a digit string. */
  function DigitsValue(s: string): nat
    requires forall i :: 0 <= i < |s| ==> IsDigit(s[i])
    decreases |s|
  {
    if s == [] then 0
    else
      assert IsDigit(s[|s| - 1]);
      DigitsValue(s[..|s| - 1]) * 10 + (s[|s| - 1] as int - '0' as int)
  }

  function DigitChar(d: nat): (c: char)
    requires d < 10
    ensures IsDigit(c)
  {
    ('0' as int + d) as char
  }

  /** The four-digit, zero-padded decimal text of `n`. */
  function Pad4(n: nat): (r: string)
    requires n < 10000
    ensures |r| == 4 && IsDigits(r)
  {
    [DigitChar(n / 1000), DigitChar(n / 100 % 10), DigitChar(n / 10 % 10), DigitChar(n % 10)]
  }

  /** The value of a four-digit text, digit by digit. */
  lemma DigitsValue4(s: string)
    requires |s| == 4 && IsDigits(s)
    ensures DigitsValue(s) == (((s[0] as int - '0' as int) * 10 + (s[1] as int - '0' as int)) * 10
      + (s[2] as int - '0' as int)) * 10 + (s[3] as int - '0' as int)
  {
    assert s[..3][..2] == s[..2] && s[..2][..1] == s[..1] && s[..1][..0] == [];
    assert DigitsValue(s[..1]) == s[0] as int - '0' as int;
    assert DigitsValue(s[..2]) == DigitsValue(s[..1]) * 10 + (s[1] as int - '0' as int);
    assert DigitsValue(s[..3]) == DigitsValue(s[..2]) * 10 + (s[2] as int - '0' as int);
  }

  lemma DivMod10(a: int, q: int, r: int)
    requires 0 <= r < 10 && a == q * 10 + r
    ensures a / 10 == q && a % 10 == r
  {
  }

  lemma DivMod100(a: int, q: int, r: int)
    requires 0 <= r < 100 && a == q * 100 + r
    ensures a / 100 == q
  {
  }

  lemma DivMod1000(a: int, q: int, r: int)
    requires 0 <= r < 1000 && a == q * 1000 + r
    ensures a / 1000 == q
  {
  }

  /** Reading back a padded number gives the number. */
  lemma Pad4Value(n: nat)
    requires n < 10000
    ensures DigitsValue(Pad4(n)) == n
  {
    var t := n / 10;
    var h := n / 100;
    var d := n % 10;
    assert n == t * 10 + d;
    assert t == t / 10 * 10 + t % 10;
    DivMod100(n, t / 10, t % 10 * 10 + d);
    assert h == t / 10;
    assert h == h / 10 * 10 + h % 10;
    DivMod1000(n, h / 10, h % 10 * 100 + t % 10 * 10 + d);
    DigitsValue4(Pad4(n));
    assert DigitsValue(Pad4(n)) == ((h / 10 * 10 + h % 10) * 10 + t % 10) * 10 + d;
  }

  /** Every four-digit text is the padded form of its value. */
  lemma Pad4OfValue(s: string)
    requires |s| == 4 && IsDigits(s)
    ensures DigitsValue(s) < 10000
    ensures Pad4(DigitsValue(s)) == s
  {
    DigitsValue4(s);
    assert IsDigit(s[0]) && IsDigit(s[1]) && IsDigit(s[2]) && IsDigit(s[3]);
    var d0, d1, d2, d3 := s[0] as int - '0' as int, s[1] as int - '0' as int,
      s[2] as int - '0' as int, s[3] as int - '0' as int;
    var v := ((d0 * 10 + d1) * 10 + d2) * 10 + d3;
    DivMod1000(v, d0, (d1 * 10 + d2) * 10 + d3);
    DivMod100(v, d0 * 10 + d1, d2 * 10 + d3);
    DivMod10(d0 * 10 + d1, d0, d1);
    DivMod10(v, (d0 * 10 + d1) * 10 + d2, d3);
    DivMod10((d0 * 10 + d1) * 10 + d2, d0 * 10 + d1, d2);
    assert Pad4(v) == [DigitChar(d0), DigitChar(d1), DigitChar(d2), DigitChar(d3)];
  }

  /** `xs` is `ys` with some elements left out, the rest in their order. */
  predicate IsSubsequence<T(==)>(xs: seq<T>, ys: seq<T>)
    decreases |ys|
  {
    if xs == [] then true
    else if ys == [] then false
    else if xs[0] == ys[0] then IsSubsequence(xs[1..], ys[1..])
    else IsSubsequence(xs, ys[1..])
  }
}

=== FILE: views.dfy ===
/** The Django views of the back end, as functions from an in-memory store
    and a request to a new store and a response. Database queries become
    searches over sequences; token generation, the current time, password
    strength validation, serializer validation and mail delivery are
    inputs. */
module Views {
  import opened Wrappers
  import opened Text
  import opened Wire

  /** A stored password. Hashing is modelled as an injective wrapping, so
      checking a password is comparing wrapped texts. */
  datatype Secret = Hashed(plain: string)

  datatype Account = Account(
    id: nat,
    email: string,
    password: Secret,
    role: string,
    student_number: Option<string>,
    registration_number: Option<string>,
    programme: Option<int>,
    has_profile: bool)

  /** A complaint row of either kind, as far as the views read it. */
  datatype ComplaintRow = ComplaintRow(id: nat, student: nat, status: string)

  datatype Notification = Notification(receiver: nat, severity: string)

  datatype ResetToken = ResetToken(owner: nat, token: string, expires: int, used: bool)

  datatype Store = Store(
    users: seq<Account>,
    regComplaints: seq<ComplaintRow>,
    marksComplaints: seq<ComplaintRow>,
    notifications: seq<Notification>,
    years: seq<string>,
    resetTokens: seq<ResetToken>,
    recentResets: set<string>)

  /** Response bodies. `Serialized` stands for a serializer's output and
      `SerializerErrors` for its error dictionary; the contents of neither
      are part of this model. */
  datatype Body =
    | ErrorBody(error: string)
    | MessageBody(message: string)
    | SignUpBody(message: string, user: ServerUser)
    | LoginBody(auth: AuthBody)
    | StatisticsBody(total: nat, pending: nat)
    | Serialized
    | SerializerErrors
    | NoBody

  datatype Response = Response(status: nat, body: Body)

  /** The store after a request, and the response. */
  datatype Step = Step(store: Store, response: Response)

  /** The first position whose element satisfies `p`. */
  function IndexWhere<T>(xs: seq<T>, p: T -> bool): (i: Option<nat>)
    ensures i.Some? ==> i.value < |xs| && p(xs[i.value])
    ensures i.Some? ==> forall k | 0 <= k < i.value :: !p(xs[k])
    ensures i.None? <==> forall k | 0 <= k < |xs| :: !p(xs[k])
    decreases |xs|
  {
    if xs == [] then None
    else if p(xs[0]) then Some(0)
    else
      match IndexWhere(xs[1..], p)
      case None => None
      case Some(j) => Some(j + 1)
  }

  function UserWithEmail(users: seq<Account>, email: string): Option<nat>
  {
    IndexWhere(users, (u: Account) => u.email == email)
  }

  function UserWithId(users: seq<Account>, id: nat): Option<nat>
  {
    IndexWhere(users, (u: Account) => u.id == id)
  }

  /** The store invariant the database's unique constraints keep. */
  predicate UniqueEmails(users: seq<Account>)
  {
    forall i, j | 0 <= i < j < |users| :: users[i].email != users[j].email
  }

  // ---- Sign-up -------------------------------------------------------------

  const StudentDomain := "students.mak.ac.ug"
  const StaffDomain := "cit.mak.ac.ug"
  const SignedUp := "Account created successfully. Please login."

  datatype SignUpRequest = SignUpRequest(
    email: Option<string>,
    password: Option<string>,
    student_number: Option<string>,
    registration_number: Option<string>)

  /** The back end's domain check: a substring test, not a domain match. */
  predicate DomainAccepted(email: string): (ok: bool)
    ensures ok ==> |email| >= |StaffDomain|
  {
    Contains(email, StudentDomain) || Contains(email, StaffDomain)
  }

  /** Either domain text anywhere in the address passes, whatever surrounds
      it: "x@cit.mak.ac.ug.example.org" is accepted too. */
  lemma DomainAnywhereAccepted(before: string, domain: string, after: string)
    requires domain == StudentDomain || domain == StaffDomain
    ensures DomainAccepted(before + domain + after)
  {
    var e := before + domain + after;
    assert e[|before|..] == domain + after;
    assert domain <= e[|before|..];
  }

  /** The domain check in both directions: an address passes iff one of
      the two domain texts occurs in it, with anything before and after. */
  lemma DomainAcceptedIffInfix(email: string)
    ensures DomainAccepted(email) <==>
      exists before, after :: email == before + StudentDomain + after || email == before + StaffDomain + after
  {
    if DomainAccepted(email) {
      var d := if Contains(email, StudentDomain) then StudentDomain else StaffDomain;
      var i :| 0 <= i <= |email| && d <= email[i..];
      var before, after := email[..i], email[i + |d|..];
      assert email == before + d + after;
    } else if exists before, after :: email == before + StudentDomain + after || email == before + StaffDomain + after {
      var before, after :| email == before + StudentDomain + after || email == before + StaffDomain + after;
      if email == before + StudentDomain + after {
        DomainAnywhereAccepted(before, StudentDomain, after);
      } else {
        DomainAnywhereAccepted(before, StaffDomain, after);
      }
    }
  }

  /** The student domain wins when both appear. */
  function RoleFor(email: string): (role: string)
    ensures role == "student" <==> Contains(email, StudentDomain)
    ensures role == "lecturer" <==> !Contains(email, StudentDomain)
  {
    if Contains(email, StudentDomain) then "student" else "lecturer"
  }

  /** An identifier no stored user has, as the database assigns. */
  function NextId(users: seq<Account>): (n: nat)
    ensures forall k | 0 <= k < |users| :: users[k].id < n
    decreases |users|
  {
    if users == [] then 1
    else
      var m := NextId(users[1..]);
      if users[0].id >= m then users[0].id + 1 else m
  }

  /** The serialized form of a new account. */
  function Serialize(a: Account): (u: ServerUser)
    ensures u.email == a.email && u.role == Some(a.role) && u.user_id == Some(a.id)
  {
    ServerUser(a.email, a.student_number, a.registration_number, a.programme, Some(a.role),
               Some(a.id), FlagBool(a.has_profile))
  }

  /** `sign_up`: a missing field is a key error answered with 400 and the
      key's text; the domain check comes before the password is read; the
      role follows the domain; a taken email or invalid data is refused.
      The new account has no profile and the response carries no tokens. */
  function SignUpView(s: Store, req: SignUpRequest, valid: bool): (out: Step)
    ensures out.response.status == 201 || out.response.status == 400
    ensures out.response.status == 201 <==>
      req.email.Some? && DomainAccepted(req.email.value) && req.password.Some?
      && UserWithEmail(s.users, req.email.value).None? && valid
    ensures out.response.status != 201 ==> out.store == s
    ensures req.email.None? ==> out.response == Response(400, ErrorBody("'email'"))
    ensures out.response.status == 201 ==>
      var a := Account(NextId(s.users), req.email.value, Hashed(req.password.value), RoleFor(req.email.value),
                       req.student_number, req.registration_number, None, false);
      && out.store == s.(users := s.users + [a])
      && out.response.body == SignUpBody(SignedUp, Serialize(a))
  {
    if req.email.None? then Step(s, Response(400, ErrorBody("'email'")))
    else
      var email := req.email.value;
      if !DomainAccepted(email) then
        Step(s, Response(400, ErrorBody("Invalid email domain. Must be students.mak.ac.ug or cit.mak.ac.ug")))
      else if req.password.None? then Step(s, Response(400, ErrorBody("'password'")))
      else if UserWithEmail(s.users, email).Some? then
        Step(s, Response(400, ErrorBody("User with this email already exists")))
      else if !valid then Step(s, Response(400, SerializerErrors))
      else
        var a := Account(NextId(s.users), email, Hashed(req.password.value), RoleFor(email),
                         req.student_number, req.registration_number, None, false);
        Step(s.(users := s.users + [a]), Response(201, SignUpBody(SignedUp, Serialize(a))))
  }

  /** Sign-up keeps emails unique. */
  lemma SignUpKeepsEmailsUnique(s: Store, req: SignUpRequest, valid: bool)
    requires UniqueEmails(s.users)
    ensures UniqueEmails(SignUpView(s, req, valid).store.users)
  {
    var out := SignUpView(s, req, valid);
    if out.response.status == 201 {
      var users := out.store.users;
      forall i, j | 0 <= i < j < |users| ensures users[i].email != users[j].email {
        if j == |s.users| {
          assert users[i] == s.users[i];
        }
      }
    }
  }

  // ---- Login ---------------------------------------------------------------

  const BadCredentials := "Invalid email or password"

  /** `login`: both fields must be non-empty; an unknown email and a wrong
      password get the same 401; success carries the two tokens (opaque
      inputs) and the user with `has_profile` as the text "true" or
      "false". */
  function LoginView(s: Store, email: Option<string>, password: Option<string>,
                     access: string, refresh: string): (r: Response)
    ensures r.status == 200 || r.status == 400 || r.status == 401
    ensures r.status == 400 <==> email.None? || email == Some("") || password.None? || password == Some("")
    ensures r.status == 401 ==> r == Response(401, ErrorBody(BadCredentials))
    ensures r.status == 200 <==>
      r.status != 400 && UserWithEmail(s.users, email.value).Some?
      && s.users[UserWithEmail(s.users, email.value).value].password == Hashed(password.value)
    ensures r.status == 200 ==>
      var a := s.users[UserWithEmail(s.users, email.value).value];
      && r.body.LoginBody?
      && r.body.auth.access == Some(access) && r.body.auth.refresh == Some(refresh)
      && r.body.auth.user.email == a.email
      && r.body.auth.user.role == Some(a.role)
      && r.body.auth.user.has_profile == FlagText(if a.has_profile then "true" else "false")
    ensures r.status == 200 ==>
      var a := s.users[UserWithEmail(s.users, email.value).value];
      && r.body.auth.message == None
      && r.body.auth.user.student_number == a.student_number
      && r.body.auth.user.registration_number == a.registration_number
      && r.body.auth.user.programme == a.programme
      && r.body.auth.user.user_id == Some(a.id)
  {
    if email.None? || email == Some("") || password.None? || password == Some("") then
      Response(400, ErrorBody("Email and password are required"))
    else
      match UserWithEmail(s.users, email.value)
      case None => Response(401, ErrorBody(BadCredentials))
      case Some(i) =>
        var a := s.users[i];
        if a.password != Hashed(password.value) then Response(401, ErrorBody(BadCredentials))
        else
          var user := ServerUser(a.email, a.student_number, a.registration_number, a.programme,
                                 Some(a.role), Some(a.id),
                                 FlagText(if a.has_profile then "true" else "false"));
          Response(200, LoginBody(AuthBody(Some(access), Some(refresh), None, user)))
  }

  /** The response does not reveal whether an email is registered: an
      unknown email and a wrong password for a known one are answered
      identically. */
  lemma LoginHidesAccounts(s: Store, unknown: string, known: string, wrong: string, access: string, refresh: string)
    requires unknown != "" && known != "" && wrong != ""
    requires UserWithEmail(s.users, unknown).None?
    requires UserWithEmail(s.users, known).Some?
    requires s.users[UserWithEmail(s.users, known).value].password != Hashed(wrong)
    ensures LoginView(s, Some(unknown), Some(wrong), access, refresh)
         == LoginView(s, Some(known), Some(wrong), access, refresh)
  {
  }

  /** A fresh account can log in with the password it signed up with, and
      receives the role sign-up assigned. */
  lemma SignUpThenLogin(s: Store, req: SignUpRequest, valid: bool, access: string, refresh: string)
    requires UniqueEmails(s.users)
    requires SignUpView(s, req, valid).response.status == 201
    requires req.password != Some("")
    ensures var s' := SignUpView(s, req, valid).store;
      var r := LoginView(s', req.email, req.password, access, refresh);
      && r.status == 200
      && r.body.auth.user.role == Some(RoleFor(req.email.value))
      && r.body.auth.user.has_profile == FlagText("false")
  {
    var s' := SignUpView(s, req, valid).store;
    var email := req.email.value;
    var n := |s.users|;
    assert s'.users[n].email == email;
    var i := UserWithEmail(s'.users, email);
    assert i.Some?;
    assert i.value == n;
  }

  // ---- Profile -------------------------------------------------------------

  /** The fields a profile update may carry; an absent one is left as it is.
      The serializer is partial, so besides the three profile fields an
      update may change the e-mail and the role. */
  datatype ProfileUpdate = ProfileUpdate(
    email: Option<string>,
    role: Option<string>,
    student_number: Option<string>,
    registration_number: Option<string>,
    programme: Option<int>)

  function Apply(a: Account, f: ProfileUpdate): (b: Account)
    ensures b.id == a.id && b.password == a.password
    ensures b.has_profile
    ensures b.email == (if f.email.Some? then f.email.value else a.email)
    ensures b.role == (if f.role.Some? then f.role.value else a.role)
    ensures b.student_number == (if f.student_number.Some? then f.student_number else a.student_number)
    ensures b.registration_number == (if f.registration_number.Some? then f.registration_number else a.registration_number)
    ensures b.programme == (if f.programme.Some? then f.programme else a.programme)
  {
    a.(email := if f.email.Some? then f.email.value else a.email,
       role := if f.role.Some? then f.role.value else a.role,
       student_number := if f.student_number.Some? then f.student_number else a.student_number,
       registration_number := if f.registration_number.Some? then f.registration_number else a.registration_number,
       programme := if f.programme.Some? then f.programme else a.programme,
       has_profile := true)
  }

  /** `update_profile`: 404 for an unknown id, 400 for invalid data,
      otherwise a partial update that also marks the profile complete.
      `valid` is the serializer's verdict on the data. */
  function UpdateProfileView(s: Store, pk: nat, f: ProfileUpdate, valid: bool): (out: Step)
    ensures UserWithId(s.users, pk).None? ==> out == Step(s, Response(404, NoBody))
    ensures UserWithId(s.users, pk).Some? && !valid ==> out == Step(s, Response(400, NoBody))
    ensures out.response.status == 202 <==> UserWithId(s.users, pk).Some? && valid
    ensures out.response.status == 202 ==>
      var i := UserWithId(s.users, pk).value;
      && |out.store.users| == |s.users|
      && out.store.users[i] == Apply(s.users[i], f)
      && (forall k | 0 <= k < |s.users| && k != i :: out.store.users[k] == s.users[k])
      && out.store == s.(users := out.store.users)
  {
    match UserWithId(s.users, pk)
    case None => Step(s, Response(404, NoBody))
    case Some(i) =>
      if !valid then Step(s, Response(400, NoBody))
      else Step(s.(users := s.users[i := Apply(s.users[i], f)]), Response(202, Serialized))
  }

  /** No account other than the one at index `i` uses this e-mail. */
  predicate EmailFreeExcept(users: seq<Account>, i: nat, email: string)
  {
    forall k | 0 <= k < |users| && k != i :: users[k].email != email
  }

  /** Updating a profile keeps emails unique, given that the serializer
      accepts a new e-mail only when no other account uses it (the unique
      constraint on the e-mail column). */
  lemma UpdateProfileKeepsEmailsUnique(s: Store, pk: nat, f: ProfileUpdate, valid: bool)
    requires UniqueEmails(s.users)
    requires valid && f.email.Some? && UserWithId(s.users, pk).Some? ==>
      EmailFreeExcept(s.users, UserWithId(s.users, pk).value, f.email.value)
    ensures UniqueEmails(UpdateProfileView(s, pk, f, valid).store.users)
  {
  }

  /** Without that check, accepting a taken e-mail would break uniqueness:
      the updated account and the other owner then share it. */
  lemma TakenEmailBreaksUniqueness(s: Store, pk: nat, f: ProfileUpdate, k: nat)
    requires UserWithId(s.users, pk).Some? && f.email.Some?
    requires k < |s.users| && k != UserWithId(s.users, pk).value && s.users[k].email == f.email.value
    ensures !UniqueEmails(UpdateProfileView(s, pk, f, true).store.users)
  {
    var i := UserWithId(s.users, pk).value;
    var users := UpdateProfileView(s, pk, f, true).store.users;
    assert users[i].email == users[k].email;
  }

  // ---- Academic years ------------------------------------------------------

  const YearFormat := "Academic year must be in format YYYY/YYYY"
  const YearStep := "End year must be start year + 1"

  /** The title check of `academic_years`: a "/" must be present, the title
      must split into exactly two parts of four digits each, and the second
      year must follow the first. */
  function ValidateYearTitle(title: string): (err: Option<string>)
    ensures err.None? || err == Some(YearFormat) || err == Some(YearStep)
    ensures '/' !in title ==> err == Some(YearFormat)
    ensures Occurrences(title, '/') != 1 ==> err == Some(YearFormat)
  {
    if title == "" || '/' !in title then Some(YearFormat)
    else
      var parts := Split(title, '/');
      if |parts| != 2 then Some(YearFormat)
      else if !(IsDigits(parts[0]) && IsDigits(parts[1]) && |parts[0]| == 4 && |parts[1]| == 4) then Some(YearFormat)
      else if DigitsValue(parts[1]) != DigitsValue(parts[0]) + 1 then Some(YearStep)
      else None
  }

  /** The title of the academic year that starts in `y`. */
  function YearTitle(y: nat): string
    requires y < 9999
  {
    Pad4(y) + "/" + Pad4(y + 1)
  }

  lemma DigitsHaveNoSlash(s: string)
    requires IsDigits(s)
    ensures '/' !in s
  {
    assert forall k | 0 <= k < |s| :: s[k] != '/';
  }

  /** Every year's title is accepted. */
  lemma YearTitleAccepted(y: nat)
    requires y < 9999
    ensures ValidateYearTitle(YearTitle(y)) == None
  {
    var a, b := Pad4(y), Pad4(y + 1);
    DigitsHaveNoSlash(a);
    DigitsHaveNoSlash(b);
    SplitAfterSegment(a, '/', b);
    SplitWithoutSeparator(b, '/');
    assert YearTitle(y) == a + ['/'] + b;
    assert '/' in YearTitle(y) by { assert YearTitle(y)[4] == '/'; }
    Pad4Value(y);
    Pad4Value(y + 1);
  }

  /** Every accepted title is some year's title. */
  lemma AcceptedTitleIsYearTitle(title: string)
    requires ValidateYearTitle(title) == None
    ensures DigitsValue(Split(title, '/')[0]) < 9999
    ensures title == YearTitle(DigitsValue(Split(title, '/')[0]))
  {
    var parts := Split(title, '/');
    SplitThenJoin(title, '/');
    assert Join(parts, "/") == parts[0] + "/" + parts[1];
    Pad4OfValue(parts[0]);
    Pad4OfValue(parts[1]);
  }

  /** A title in the right shape whose years do not follow each other gets
      its own message. */
  lemma WrongStepIsReported(y: nat, z: nat)
    requires y < 10000 && z < 10000 && z != y + 1
    ensures ValidateYearTitle(Pad4(y) + "/" + Pad4(z)) == Some(YearStep)
  {
    var a, b := Pad4(y), Pad4(z);
    DigitsHaveNoSlash(a);
    DigitsHaveNoSlash(b);
    SplitAfterSegment(a, '/', b);
    SplitWithoutSeparator(b, '/');
    assert a + "/" + b == a + ['/'] + b;
    assert '/' in a + "/" + b by { assert (a + "/" + b)[4] == '/'; }
    Pad4Value(y);
    Pad4Value(z);
  }

  /** The POST side of `academic_years`: the title (empty when absent) is
      checked, then the serializer's verdict decides; a refusal by the
      serializer answers with its own field errors. */
  function CreateYearView(s: Store, title: string, valid: bool): (out: Step)
    ensures out.response.status == 201 <==> ValidateYearTitle(title).None? && valid
    ensures out.response.status == 201 ==> out.store == s.(years := s.years + [title])
    ensures out.response.status != 201 ==> out.store == s && out.response.status == 400
    ensures ValidateYearTitle(title).Some? ==> out.response.body == ErrorBody(ValidateYearTitle(title).value)
    ensures ValidateYearTitle(title).None? && !valid ==> out.response.body == SerializerErrors
  {
    match ValidateYearTitle(title)
    case Some(e) => Step(s, Response(400, ErrorBody(e)))
    case None =>
      if !valid then Step(s, Response(400, SerializerErrors))
      else Step(s.(years := s.years + [title]), Response(201, Serialized))
  }

  // ---- Statistics and the sent-complaints list ------------------------------

  function OfStudent(cs: seq<ComplaintRow>, pk: nat): (r: seq<ComplaintRow>)
    ensures |r| <= |cs|
    ensures forall c :: c in r <==> c in cs && c.student == pk
    decreases |cs|
  {
    if cs == [] then []
    else if cs[0].student == pk then [cs[0]] + OfStudent(cs[1..], pk)
    else OfStudent(cs[1..], pk)
  }

  /** The rows of `cs` with this status, in order. */
  function WithStatus(cs: seq<ComplaintRow>, status: string): (r: seq<ComplaintRow>)
    ensures |r| <= |cs|
    ensures forall c :: c in r <==> c in cs && c.status == status
    decreases |cs|
  {
    if cs == [] then []
    else if cs[0].status == status then [cs[0]] + WithStatus(cs[1..], status)
    else WithStatus(cs[1..], status)
  }

  const Pending := "pending"

  /** The number of the student's complaints still pending: the rows that
      belong to the student and carry the status "pending". */
  function PendingOf(cs: seq<ComplaintRow>, pk: nat): (n: nat)
    ensures n == |WithStatus(OfStudent(cs, pk), Pending)|
    ensures n <= |OfStudent(cs, pk)|
    decreases |cs|
  {
    if cs == [] then 0
    else (if cs[0].student == pk && cs[0].status == Pending then 1 else 0) + PendingOf(cs[1..], pk)
  }

  /** `student_statistics`: all of the student's complaints of both kinds,
      and the pending ones. */
  function StudentStatistics(s: Store, pk: nat): (r: Response)
    ensures r.status == 200 && r.body.StatisticsBody?
    ensures r.body.pending <= r.body.total
    ensures r.body.total == |OfStudent(s.marksComplaints, pk)| + |OfStudent(s.regComplaints, pk)|
    ensures r.body.pending ==
      |WithStatus(OfStudent(s.marksComplaints, pk), Pending)| + |WithStatus(OfStudent(s.regComplaints, pk), Pending)|
  {
    Response(200, StatisticsBody(
      |OfStudent(s.marksComplaints, pk)| + |OfStudent(s.regComplaints, pk)|,
      PendingOf(s.marksComplaints, pk) + PendingOf(s.regComplaints, pk)))
  }

  datatype Tagged = Tagged(complaint: ComplaintRow, kind: string)

  const MarksTag := "missing marks complaint"
  const RegTag := "registration issues"

  function Tag(cs: seq<ComplaintRow>, kind: string): (r: seq<Tagged>)
    ensures |r| == |cs|
    ensures forall i | 0 <= i < |cs| :: r[i] == Tagged(cs[i], kind)
  {
    seq(|cs|, i requires 0 <= i < |cs| => Tagged(cs[i], kind))
  }

  /** `sent_complaints`: the student's missing-marks complaints, then their
      registration complaints, each tagged with its kind. */
  function SentComplaints(s: Store, pk: nat): (r: seq<Tagged>)
    ensures var m := OfStudent(s.marksComplaints, pk);
      var g := OfStudent(s.regComplaints, pk);
      && |r| == |m| + |g|
      && (forall i | 0 <= i < |m| :: r[i] == Tagged(m[i], MarksTag))
      && (forall i | 0 <= i < |g| :: r[|m| + i] == Tagged(g[i], RegTag))
  {
    var m := Tag(OfStudent(s.marksComplaints, pk), MarksTag);
    var g := Tag(OfStudent(s.regComplaints, pk), RegTag);
    assert forall i | 0 <= i < |g| :: (m + g)[|m| + i] == g[i];
    m + g
  }

  /** The list has as many entries as the statistics count. */
  lemma SentMatchesStatistics(s: Store, pk: nat)
    ensures |SentComplaints(s, pk)| == StudentStatistics(s, pk).body.total
  {
  }

  // ---- Complaint updates ---------------------------------------------------

  datatype Kind = Registration | MissingMarks

  function Table(s: Store, kind: Kind): seq<ComplaintRow>
  {
    if kind == Registration then s.regComplaints else s.marksComplaints
  }

  function WithTable(s: Store, kind: Kind, t: seq<ComplaintRow>): Store
  {
    if kind == Registration then s.(regComplaints := t) else s.(marksComplaints := t)
  }

  function Severity(status: string): (sev: string)
    ensures sev == "success" <==> status == "resolved"
    ensures sev != "success" ==> sev == "info"
  {
    if status == "resolved" then "success" else "info"
  }

  /** `update_reg_complaint` and `update_marks_complaint`: an unknown id is
      a 400 with nothing created; a request without a status fails with a
      key error (500) before anything is written; otherwise the student is
      notified and the status is set. */
  function UpdateComplaintView(s: Store, kind: Kind, pk: nat, status: Option<string>): (out: Step)
    ensures var i := IndexWhere(Table(s, kind), (c: ComplaintRow) => c.id == pk);
      && (i.None? ==> out == Step(s, Response(400, NoBody)))
      && (i.Some? && status.None? ==> out.store == s && out.response.status == 500)
      && (out.response.status == 202 <==> i.Some? && status.Some?)
      && (out.response.status == 202 ==>
            var c := Table(s, kind)[i.value];
            && out.store.notifications == s.notifications + [Notification(c.student, Severity(status.value))]
            && Table(out.store, kind) == Table(s, kind)[i.value := c.(status := status.value)])
  {
    var t := Table(s, kind);
    match IndexWhere(t, (c: ComplaintRow) => c.id == pk)
    case None => Step(s, Response(400, NoBody))
    case Some(i) =>
      if status.None? then Step(s, Response(500, NoBody))
      else
        var c := t[i];
        var s1 := s.(notifications := s.notifications + [Notification(c.student, Severity(status.value))]);
        Step(WithTable(s1, kind, t[i := c.(status := status.value)]), Response(202, NoBody))
  }

  /** An update touches only its own table and the notifications. */
  lemma UpdateComplaintIsLocal(s: Store, kind: Kind, pk: nat, status: Option<string>)
    ensures var s' := UpdateComplaintView(s, kind, pk, status).store;
      && s'.users == s.users && s'.years == s.years && s'.resetTokens == s.resetTokens
      && s'.recentResets == s.recentResets
      && (kind == Registration ==> s'.marksComplaints == s.marksComplaints)
      && (kind == MissingMarks ==> s'.regComplaints == s.regComplaints)
  {
  }

  // ---- Forgot and reset password -------------------------------------------

  const ResetSent := "If an account exists with this email, you will receive password reset instructions."
  const EmailRequired := "Email is required"
  const AlreadyRequested := "A password reset request was already sent. Please check your email or try again later."
  const MailFailed := "Failed to send reset email. Please try again later."
  const TokenLifetime := 86400

  /** `forgot_password`: a recent request for the same email is refused
      before the account is looked up; an unknown email gets the same
      message as a successful send and changes nothing; a known one gets a
      token valid for 24 hours and the recent-request flag, which stay even
      when the mail cannot be sent. */
  function ForgotPasswordView(s: Store, email: Option<string>, now: int, token: string, mailSent: bool): (out: Step)
    ensures email.None? || email == Some("") ==> out == Step(s, Response(400, ErrorBody(EmailRequired)))
    ensures out.response.status == 200 ==> out.response.body == MessageBody(ResetSent)
    ensures out.response.status == 429 ==> out.response.body == ErrorBody(AlreadyRequested)
    ensures out.response.status == 500 ==> out.response.body == ErrorBody(MailFailed)
    ensures out.response.status in {200, 400, 429, 500}
    ensures out.store != s <==>
      email.Some? && email.value != "" && email.value !in s.recentResets && UserWithEmail(s.users, email.value).Some?
    ensures out.store != s ==>
      var owner := s.users[UserWithEmail(s.users, email.value).value].id;
      && out.store == s.(resetTokens := s.resetTokens + [ResetToken(owner, token, now + TokenLifetime, false)],
                         recentResets := s.recentResets + {email.value})
      && out.response.status == (if mailSent then 200 else 500)
  {
    if email.None? || email == Some("") then Step(s, Response(400, ErrorBody(EmailRequired)))
    else if email.value in s.recentResets then Step(s, Response(429, ErrorBody(AlreadyRequested)))
    else
      match UserWithEmail(s.users, email.value)
      case None => Step(s, Response(200, MessageBody(ResetSent)))
      case Some(i) =>
        var s' := s.(resetTokens := s.resetTokens + [ResetToken(s.users[i].id, token, now + TokenLifetime, false)],
                     recentResets := s.recentResets + {email.value});
        assert s' != s by { assert |s'.resetTokens| == |s.resetTokens| + 1; }
        if mailSent then Step(s', Response(200, MessageBody(ResetSent)))
        else Step(s', Response(500, ErrorBody(MailFailed)))
  }

  /** The reply does not reveal whether an email is registered. */
  lemma ForgotHidesAccounts(s: Store, unknown: string, known: string, now: int, token: string)
    requires unknown != "" && known != ""
    requires unknown !in s.recentResets && known !in s.recentResets
    requires UserWithEmail(s.users, unknown).None? && UserWithEmail(s.users, known).Some?
    ensures ForgotPasswordView(s, Some(unknown), now, token, true).response
         == ForgotPasswordView(s, Some(known), now, token, true).response
  {
  }

  /** An email with a recent request is refused, changing nothing. */
  lemma ForgotRecentRefused(s: Store, email: string, now: int, token: string, sent: bool)
    requires email != "" && email in s.recentResets
    ensures var out := ForgotPasswordView(s, Some(email), now, token, sent);
      out.store == s && out.response.status == 429
  {
  }

  /** A second request for the same registered email is refused. */
  lemma ForgotTwiceRefused(s: Store, email: string, now: int, now': int, token: string, token': string, sent: bool)
    requires email != "" && email !in s.recentResets && UserWithEmail(s.users, email).Some?
    ensures var s' := ForgotPasswordView(s, Some(email), now, token, sent).store;
      ForgotPasswordView(s', Some(email), now', token', sent).response.status == 429
  {
    var s' := ForgotPasswordView(s, Some(email), now, token, sent).store;
    ForgotRecentRefused(s', email, now', token', sent);
  }

  /** A reset token the view accepts: this text, not expired, not used. */
  predicate Usable(t: ResetToken, token: string, now: int)
  {
    t.token == token && t.expires > now && !t.used
  }

  function CountUsable(ts: seq<ResetToken>, token: string, now: int): nat
    decreases |ts|
  {
    if ts == [] then 0 else (if Usable(ts[0], token, now) then 1 else 0) + CountUsable(ts[1..], token, now)
  }

  lemma {:induction false} CountUsableZero(ts: seq<ResetToken>, token: string, now: int)
    ensures CountUsable(ts, token, now) == 0 <==> forall k | 0 <= k < |ts| :: !Usable(ts[k], token, now)
    decreases |ts|
  {
    if ts != [] {
      CountUsableZero(ts[1..], token, now);
      assert forall k | 1 <= k < |ts| :: ts[k] == ts[1..][k - 1];
    }
  }

  /** After a reset: the accepted token is marked used and every other
      unused token of the same user is deleted. */
  function Consume(ts: seq<ResetToken>, i: nat): (r: seq<ResetToken>)
    requires i < |ts|
    ensures forall t :: t in r && t.owner == ts[i].owner ==> t.used
    ensures forall t :: t in ts && t.owner != ts[i].owner ==> t in r
    ensures forall t :: t in r ==> t in ts || t == ts[i].(used := true)
    ensures ts[i].(used := true) in r
    ensures forall t :: t in ts && t.used ==> t in r
  {
    var marked := ts[i := ts[i].(used := true)];
    forall t | t in ts && t.owner != ts[i].owner ensures t in marked {
      var j :| 0 <= j < |ts| && ts[j] == t;
      assert marked[j] == t;
    }
    forall t | t in ts && t.used ensures t in marked {
      var j :| 0 <= j < |ts| && ts[j] == t;
      if j == i {
        assert ts[i].(used := true) == t;
      }
      assert marked[j] == t;
    }
    assert marked[i] == ts[i].(used := true);
    Keep(marked, ts[i].owner)
  }

  /** The tokens of `ts` except the unused ones of `owner`. */
  function Keep(ts: seq<ResetToken>, owner: nat): (r: seq<ResetToken>)
    ensures forall t :: t in r <==> t in ts && (t.owner != owner || t.used)
    decreases |ts|
  {
    if ts == [] then []
    else if ts[0].owner == owner && !ts[0].used then Keep(ts[1..], owner)
    else [ts[0]] + Keep(ts[1..], owner)
  }

  /** The first usable token with this text. */
  function UsableToken(ts: seq<ResetToken>, token: string, now: int): Option<nat>
  {
    IndexWhere(ts, (t: ResetToken) => Usable(t, token, now))
  }

  /** `set_password` on the account with this id. */
  function SetPassword(users: seq<Account>, id: nat, password: Secret): (r: seq<Account>)
    ensures |r| == |users|
    ensures forall k | 0 <= k < |users| :: users[k].id == id ==> r[k].password == password
    ensures forall k | 0 <= k < |users| :: users[k].id != id ==> r[k] == users[k]
    ensures forall k | 0 <= k < |users| :: r[k].(password := users[k].password) == users[k]
  {
    seq(|users|, k requires 0 <= k < |users| =>
      if users[k].id == id then users[k].(password := password) else users[k])
  }

  /** Setting a password changes no email, so lookups by email agree. */
  lemma {:induction false} LookupAfterSetPassword(users: seq<Account>, id: nat, password: Secret, email: string)
    ensures UserWithEmail(SetPassword(users, id, password), email) == UserWithEmail(users, email)
    decreases |users|
  {
    if users != [] {
      var r := SetPassword(users, id, password);
      LookupAfterSetPassword(users[1..], id, password, email);
      assert r[1..] == SetPassword(users[1..], id, password);
      assert r[0].email == users[0].email;
    }
  }

  const ResetRefused := "Invalid or expired reset token. Please request a new password reset."

  /** The reset goes through to its writes: a non-empty password that
      passes the strength validator and exactly one usable token. */
  predicate ResetApplies(s: Store, token: string, password: Option<string>, strong: bool, now: int)
  {
    password.Some? && password.value != "" && strong && CountUsable(s.resetTokens, token, now) == 1
  }

  /** `reset_password`: the password is required and must pass the
      strength validator; exactly one usable token must match (several are
      an uncaught error, 500); then the owner's password is replaced and the
      tokens are consumed. Last, the owner's session tokens are deleted
      through the `auth_token_set` accessor, which an installed token app
      must define; `cleared` says whether that step succeeds. If it does
      not, the uncaught error answers 500 after the writes are done. */
  function ResetPasswordView(s: Store, token: string, password: Option<string>, strong: bool, now: int,
                             cleared: bool): (out: Step)
    ensures out.response.status == 200 <==> ResetApplies(s, token, password, strong, now) && cleared
    ensures !ResetApplies(s, token, password, strong, now) ==> out.store == s
    ensures password.Some? && password.value != "" && strong && CountUsable(s.resetTokens, token, now) == 0 ==>
      out.response == Response(400, ErrorBody(ResetRefused))
    ensures ResetApplies(s, token, password, strong, now) ==>
      && UsableToken(s.resetTokens, token, now).Some?
      && var i := UsableToken(s.resetTokens, token, now).value;
      && out.store == s.(users := SetPassword(s.users, s.resetTokens[i].owner, Hashed(password.value)),
                         resetTokens := Consume(s.resetTokens, i))
    ensures ResetApplies(s, token, password, strong, now) && !cleared ==> out.response == Response(500, NoBody)
  {
    if password.None? || password == Some("") then Step(s, Response(400, ErrorBody("Password is required")))
    else if !strong then Step(s, Response(400, ErrorBody("Password validation failed")))
    else
      var n := CountUsable(s.resetTokens, token, now);
      if n == 0 then Step(s, Response(400, ErrorBody(ResetRefused)))
      else if n > 1 then Step(s, Response(500, NoBody))
      else
        CountUsableZero(s.resetTokens, token, now);
        var i := UsableToken(s.resetTokens, token, now).value;
        var s' := s.(users := SetPassword(s.users, s.resetTokens[i].owner, Hashed(password.value)),
                     resetTokens := Consume(s.resetTokens, i));
        if !cleared then Step(s', Response(500, NoBody))
        else Step(s', Response(200, MessageBody(ResetDoneMessage)))
  }

  const ResetDoneMessage := "Password has been reset successfully. You can now login with your new password."

  /** No two reset tokens share their text: the view issues 32 random
      characters each time, which this model takes as fresh. */
  predicate UniqueTokenTexts(ts: seq<ResetToken>)
  {
    forall i, j | 0 <= i < j < |ts| :: ts[i].token != ts[j].token
  }

  /** Once consumed, no token with the consumed text is usable. */
  lemma ConsumedTextUnusable(ts: seq<ResetToken>, i: nat, later: int)
    requires i < |ts| && UniqueTokenTexts(ts)
    ensures forall k | 0 <= k < |Consume(ts, i)| :: !Usable(Consume(ts, i)[k], ts[i].token, later)
  {
    var r := Consume(ts, i);
    forall k | 0 <= k < |r| ensures !Usable(r[k], ts[i].token, later) {
      var t := r[k];
      assert t in r;
      if t != ts[i].(used := true) {
        var j :| 0 <= j < |ts| && ts[j] == t;
        assert j != i ==> ts[j].token != ts[i].token;
      }
    }
  }

  /** A token works once: once a reset has gone through to its writes,
      the same token is refused at any later time, even when the first
      answer was the clean-up's 500. */
  lemma TokenSingleUse(s: Store, token: string, p: string, p': string, now: int, now': int,
                       cleared: bool, cleared': bool)
    requires UniqueTokenTexts(s.resetTokens)
    requires ResetApplies(s, token, Some(p), true, now)
    requires p' != ""
    ensures var s' := ResetPasswordView(s, token, Some(p), true, now, cleared).store;
      ResetPasswordView(s', token, Some(p'), true, now', cleared').response == Response(400, ErrorBody(ResetRefused))
  {
    var s' := ResetPasswordView(s, token, Some(p), true, now, cleared).store;
    var i := UsableToken(s.resetTokens, token, now).value;
    assert s'.resetTokens == Consume(s.resetTokens, i);
    ConsumedTextUnusable(s.resetTokens, i, now');
    CountUsableZero(s'.resetTokens, token, now');
  }

  /** After a reset the owner logs in with the new password, whether or not
      the clean-up let the answer be 200. */
  lemma ResetThenLogin(s: Store, token: string, p: string, now: int, cleared: bool,
                       email: string, access: string, refresh: string)
    requires ResetApplies(s, token, Some(p), true, now) && UsableToken(s.resetTokens, token, now).Some?
    requires email != "" && UserWithEmail(s.users, email).Some?
    requires s.users[UserWithEmail(s.users, email).value].id
          == s.resetTokens[UsableToken(s.resetTokens, token, now).value].owner
    ensures var s' := ResetPasswordView(s, token, Some(p), true, now, cleared).store;
      LoginView(s', Some(email), Some(p), access, refresh).status == 200
  {
    var s' := ResetPasswordView(s, token, Some(p), true, now, cleared).store;
    var owner := s.resetTokens[UsableToken(s.resetTokens, token, now).value].owner;
    assert p != "";
    var users' := SetPassword(s.users, owner, Hashed(p));
    assert s'.users == users';
    LookupAfterSetPassword(s.users, owner, Hashed(p), email);
    var j := UserWithEmail(s.users, email).value;
    assert users'[j].password == Hashed(p);
    LoginAcceptsPassword(s', email, p, access, refresh);
  }

  /** Login succeeds for a registered email whose stored hash is the
      password's. */
  lemma LoginAcceptsPassword(s: Store, email: string, p: string, access: string, refresh: string)
    requires email != "" && p != "" && UserWithEmail(s.users, email).Some?
    requires s.users[UserWithEmail(s.users, email).value].password == Hashed(p)
    ensures LoginView(s, Some(email), Some(p), access, refresh).status == 200
  {
  }
}

=== FILE: wire.dfy ===
/** The JSON shapes that travel between the Django back end and the React
    front end, as far as the authentication core reads them. */
module Wire {
  import opened Wrappers

  /** How `has_profile` travels. The login view sends the strings "true" and
      "false"; a serializer may send a JSON boolean; the field may be absent. */
  datatype Flag = FlagText(text: string) | FlagBool(b: bool) | FlagMissing

  /** The `user` object inside a sign-in or sign-up response body. The email
      is always present: the front end calls `split` on it. */
  datatype ServerUser = ServerUser(
    email: string,
    student_number: Option<string>,
    registration_number: Option<string>,
    programme: Option<int>,
    role: Option<string>,
    user_id: Option<int>,
    has_profile: Flag)

  /** The body of a successful sign-in or sign-up response; `access` and
      `refresh` are absent when the endpoint issues no tokens. */
  datatype AuthBody = AuthBody(
    access: Option<string>,
    refresh: Option<string>,
    message: Option<string>,
    user: ServerUser)

  /** The outcome of one HTTP call as a thunk sees it: a 2xx response with
      its body, a non-2xx response with the body's `error` field, or no
      usable response at all (network failure, unreadable body) with the
      message of the error the platform raised. */
  datatype Reply<T> = Ok(data: T) | NotOk(error: Option<string>) | NoResponse(reason: string)
}

=== FILE: wrappers.dfy ===
/** Optional values: the model's stand-in for JavaScript's null/undefined and
    Python's None. */
module Wrappers {

  datatype Option<+T> = None | Some(value: T) {

    /** The encapsulated value, or `default` when absent. */
    function GetOr(default: T): T {
      match this
      case Some(v) => v
      case None => default
    }
  }
}
